=== FILE: README.md ===
# Zoom Rooms controller backend: token cache, room commands and routes

This project models the Python backend `zr-controller-api` in Dafny. The backend controls a Zoom Room through Zoom's cloud API. The model covers four parts:

- **Token cache** (`zoom_utils/get_token.py`). The backend keeps one OAuth2 client-credentials access token in row 1 of the `token` table. `token()` returns the stored token while it has not expired. When the row is missing, unreadable or expired, it fetches a new token from the identity provider. It authenticates that fetch with a Basic credential, which is the Base64 of `CLIENT_ID:CLIENT_SECRET`. Expiry is decided by comparing `'%Y-%m-%d %H:%M:%S'` strings.
- **Token table** (`models/models.py`). Each row is an `id`, an `access_token` of at most 1000 characters and a `token_expires` datetime.
- **Room commands** (`zoom_utils/zoom_funcs.py`). Each command obtains the token and sends a PATCH to `/rooms/{id}/events` with `{'method': …}`, or a GET to `/rooms`. The commands are: camera on or off, accept a meeting, and list the rooms. Zoom's status code becomes the view's status.
- **Routes** (`routes/api.py`). `index()` and the `/toggle-camera` handler, which validates `cameraState`.

Everything outside the process is an input:

- The wall clock, the identity provider's replies and database read failures form a `World`. Each is a function of the index of the reading, request or query within one call, so a clock that moves during a call is part of the model.
- The Zoom API's reply is a parameter.
- The table is a value that each call threads through.

Module layout:

- `Wrappers`: the `Option` and `Result` types.
- `Json`: decoded JSON values, plus Python truthiness and `==` against `True` and `False`.
- `CivilTime`: Python `datetime` as whole seconds since 0001-01-01 00:00:00. It covers the proleptic Gregorian calendar, `+ timedelta` with its range check, `strftime('%Y-%m-%d %H:%M:%S')` and `str <`.
- `Utf8`: `str.encode()`.
- `Base64`: section 4 of RFC 4648, used by `base64.b64encode`.
- `Http`: outbound requests, replies, the exceptions that escape, and view results.
- `TokenModel`: the `token` table.
- `TokenCache`: `get_token.py`.
- `ZoomCommands`: `zoom_funcs.py`.
- `ApiRoutes`: `api.py`.

The central result is that the expiry test on formatted strings equals the test on instants. Both strings have the fixed width of `'%Y-%m-%d %H:%M:%S'` with a four-digit year. `CivilTime.FormatInstantOrder` proves that string order on the formatted instants is exactly time order. As a consequence, `check_token_valid` accepts exactly when now ≤ expiry (`TokenCache.CheckTokenValidIff`), and the call-count properties of `token()` follow.

Three behaviours of the code are easy to miss:

- An absent row does not always cost exactly one identity-provider request. After fetching, `token()` checks the new token's expiry against a second clock reading and fetches again if that check fails (`get_token.py:66-68`). `TokenCache.TickingClockFetchesTwice` exhibits two requests. `TokenCache.AtMostOneRequest` shows that at most one request is made under a clock that does not move and a non-negative `expires_in`.
- A connection error, a reply that is not JSON, and a missing key are all uncaught in the code. They are modelled as the exception escaping (`Err(Fault)`), not as a structured result.
- `/toggle-camera` validates its input but sends no command to Zoom.

## Model

| member | source | states |
|---|---|---|
| TokenModel.Lookup | zr-controller-api/app/models/models.py:4-9 | `filter_by(id=…).first()`: no row is found exactly when no row has that id; a found row is in the table and has that id |
| TokenModel.NextId | zr-controller-api/app/models/models.py:7 | the id an insert receives is larger than every id in the table |
| TokenModel.Insert | zr-controller-api/app/models/models.py:4-9 | an insert adds one row; every row found by id before is found unchanged after, and the new row is found under the id the database gave it |
| TokenModel.LookupAppend | zr-controller-api/app/models/models.py:7 | after appending a row, a lookup by id gives the earlier row with that id if there was one, else the new row if the id is its id, else nothing |
| TokenModel.Update | zr-controller-api/app/models/models.py:4-9 | an in-place update leaves the row count alone, replaces the rows with that id, and leaves every other row unchanged |
| TokenModel.InsertKeepsKeys | zr-controller-api/app/models/models.py:7-8 | inserting a token of at most 1000 characters into a well-formed table (distinct ids, tokens within the column length) keeps it well formed |
| TokenModel.UpdateInPlace | zr-controller-api/app/models/models.py:7-8 | overwriting an existing row keeps every id in place; on a well-formed table it keeps it well formed and the row then holds the new values |
| TokenModel.LookupUnique | zr-controller-api/app/models/models.py:7 | with distinct primary keys, looking up a row's id finds that row |
| CivilTime.YearDay | zr-controller-api/app/zoom_utils/get_token.py:33 | splitting a day count into years lands in a year at or after the start and on a day inside that year |
| CivilTime.YearDayExact | zr-controller-api/app/zoom_utils/get_token.py:33 | the year and day-of-year found add back up to the day count, using the closed-form days-before-year |
| CivilTime.DaysBeforeYearStep | zr-controller-api/app/zoom_utils/get_token.py:33 | the closed-form day count grows by 366 in leap years and 365 otherwise, matching the month table |
| CivilTime.MonthDay | zr-controller-api/app/zoom_utils/get_token.py:33 | a day of the year maps to a month from 1 to 12 and a day within that month's length |
| CivilTime.ToCivilValid | zr-controller-api/app/zoom_utils/get_token.py:51 | `ToCivil`: an instant has valid calendar and clock fields, the day lying within its month's length (29 February only in leap years) |
| CivilTime.InRangeYear | zr-controller-api/app/zoom_utils/get_token.py:33 | the representable instants are exactly those whose year is at most 9999 (`datetime.MAXYEAR`) |
| CivilTime.AddSecondsYear | zr-controller-api/app/zoom_utils/get_token.py:33 | `datetime + timedelta(seconds=n)` succeeds exactly when the sum is not before year 1 and its calendar year is at most 9999, and then it is the sum |
| CivilTime.Digits | zr-controller-api/app/zoom_utils/get_token.py:48 | a zero-padded field has exactly its width |
| CivilTime.FormatInstant | zr-controller-api/app/zoom_utils/get_token.py:48 | `strftime('%Y-%m-%d %H:%M:%S')` of a representable instant is 19 characters long |
| CivilTime.DigitsOrder | zr-controller-api/app/zoom_utils/get_token.py:52 | two zero-padded numbers of the same width compare as strings exactly as they compare as numbers, and are equal exactly when the numbers are |
| CivilTime.StrLessConcat | zr-controller-api/app/zoom_utils/get_token.py:52 | string `<` on concatenations with equal-length heads decides by the heads first, then the tails |
| CivilTime.FormatOrder | zr-controller-api/app/zoom_utils/get_token.py:52 | the formatted strings of two datetimes compare exactly as the datetimes do, field by field |
| CivilTime.ToCivilMonotone | zr-controller-api/app/zoom_utils/get_token.py:51-52 | a later instant has a later calendar date and time |
| CivilTime.ToCivilOrder | zr-controller-api/app/zoom_utils/get_token.py:51-52 | instant order and calendar order agree in both directions |
| CivilTime.FormatInstantOrder | zr-controller-api/app/zoom_utils/get_token.py:50-52 | the formatted string of one instant sorts before another's exactly when the instant is earlier |
| Utf8.EncodeChar | zr-controller-api/app/zoom_utils/get_token.py:19 | one character encodes to 1 to 4 bytes, and to a single byte exactly when it is ASCII |
| Utf8.Encode | zr-controller-api/app/zoom_utils/get_token.py:19 | `str.encode()` gives between 1 and 4 bytes per character |
| Utf8.DecodeEncode | zr-controller-api/app/zoom_utils/get_token.py:19 | UTF-8 decoding of the encoded string gives the string back |
| Utf8.EncodeAscii | zr-controller-api/app/zoom_utils/get_token.py:19 | an ASCII string encodes to its own code points, byte for byte |
| Base64.AlphabetIndex | zr-controller-api/app/zoom_utils/get_token.py:19 | each 6-bit value maps to an alphabet character that maps back to it |
| Base64.Encode | zr-controller-api/app/zoom_utils/get_token.py:19 | `b64encode` output is 4 characters for every started group of 3 bytes |
| Base64.DecodeEncode | zr-controller-api/app/zoom_utils/get_token.py:19 | decoding the Base64 text gives back the exact bytes |
| Base64.EncodeDecode | zr-controller-api/app/zoom_utils/get_token.py:19 | any text that decodes is the canonical encoding of what it decodes to |
| Http.Subscript | zr-controller-api/app/zoom_utils/get_token.py:32-33 | `body[key]` succeeds exactly when `body.get(key)` (`Json.Field`) finds a value, and yields that value; otherwise it raises `KeyError`, or `TypeError` when the body is not an object |
| TokenCache.CredentialRoundTrip | zr-controller-api/app/zoom_utils/get_token.py:18-24 | `BasicCredential` and `AuthHeaders`: the Basic credential decodes to exactly `CLIENT_ID:CLIENT_SECRET`, and its length is 4·⌈n/3⌉ for the n bytes encoded |
| TokenCache.TokenRequestShape | zr-controller-api/app/zoom_utils/get_token.py:27-28 | `TokenRequest`: a POST without a body, with the Basic authorization header, to the auth URL followed by the grant query and then exactly the account id |
| TokenCache.ReplyField | zr-controller-api/app/zoom_utils/get_token.py:28-32 | reading a field of the reply succeeds exactly when there was a response, it was JSON and it holds the field, and the value is that field |
| TokenCache.ParseTokenReply | zr-controller-api/app/zoom_utils/get_token.py:32-33 | reading the reply succeeds exactly when `access_token` is a string and `expires_in` a whole number of seconds, and then yields both; a missing `access_token` raises its `KeyError`, and a missing `expires_in` after a good token raises that one |
| TokenCache.GetNewToken | zr-controller-api/app/zoom_utils/get_token.py:26-48 | a fetch succeeds exactly when the reply parses, the expiry stays in range, the query does not fail and the token fits its column; it then returns the reply's token, expiring `expires_in` seconds after the clock reading; it keeps the table well formed and adds no row when row 1 exists |
| TokenCache.Save | zr-controller-api/app/zoom_utils/get_token.py:36-46 | an existing row 1 is overwritten in place with no new row; otherwise one row is inserted; the table stays well formed; a singleton table becomes exactly the new row 1 |
| TokenCache.CheckTokenValidIff | zr-controller-api/app/zoom_utils/get_token.py:50-57 | `CheckTokenValid`: the string test accepts exactly when the current time is not after the expiry, so a token expiring now is still valid |
| TokenCache.TokenCall | zr-controller-api/app/zoom_utils/get_token.py:59-69 | one call sends at most two requests, each of them the token request, and raises only after sending one |
| TokenCache.ReplaceExpired | zr-controller-api/app/zoom_utils/get_token.py:67-68 | the expired-row path sends exactly one token request |
| TokenCache.FetchOnMiss | zr-controller-api/app/zoom_utils/get_token.py:64-68 | the miss path sends one or two token requests |
| TokenCache.CachedIffNoRequest | zr-controller-api/app/zoom_utils/get_token.py:59-69 | no request is sent exactly when row 1 was read and has not expired; the stored token is then returned and the table is untouched |
| TokenCache.ExpiredTokenReplaced | zr-controller-api/app/zoom_utils/get_token.py:61-68 | an expired row costs exactly one request; the call succeeds exactly when that fetch does and then returns the fetched token, never the stale one, with the table the fetch saved; a failed fetch is the call's error and leaves the table as it was |
| TokenCache.StaleFirstFetchRefetches | zr-controller-api/app/zoom_utils/get_token.py:64-68 | when the row was missed and the first fetched token has already expired at the re-check, the call makes two requests and succeeds exactly when the second fetch does, returning the second token with the table it saved; a failed second fetch is the call's error and keeps the first fetch's row |
| TokenCache.MissFetches | zr-controller-api/app/zoom_utils/get_token.py:64-68 | a missing or unreadable row sends a request rather than failing; a failed fetch ends the call with its error; a token still valid at the next reading is returned and stored |
| TokenCache.SecondRequestIff | zr-controller-api/app/zoom_utils/get_token.py:64-68 | a second request happens exactly when the row was missed, the first fetch succeeded and its expiry was before the next clock reading |
| TokenCache.AtMostOneRequest | zr-controller-api/app/zoom_utils/get_token.py:59-69 | under a clock that does not move and a non-negative lifetime, one call sends at most one request |
| TokenCache.TickingClockFetchesTwice | zr-controller-api/app/zoom_utils/get_token.py:64-68 | an empty table, a zero-second lifetime and a clock that ticks between the fetch and the check give two requests in one call |
| TokenCache.MissingAccessTokenFails | zr-controller-api/app/zoom_utils/get_token.py:32 | a reply without `access_token` raises `KeyError` after one request, with the table unchanged |
| TokenCache.FetchKeepsSingleton | zr-controller-api/app/zoom_utils/get_token.py:36-46 | a fetch into an empty or one-row table leaves exactly one row, holding the fetched token |
| TokenCache.ReturnedTokenIsStored | zr-controller-api/app/zoom_utils/get_token.py:59-69 | from an empty or one-row table, the table stays in that shape and a returned token is the one row 1 holds |
| TokenCache.EmptyStoreScenario | zr-controller-api/app/zoom_utils/get_token.py:26-48 | from an empty table, the reply `{access_token: "tok1", expires_in: 3600}` gives "tok1" after one request and the single row (1, "tok1", now + 3600) |
| TokenCache.StoredRowStillValid | zr-controller-api/app/zoom_utils/get_token.py:59-69 | under a fixed clock and a non-negative lifetime, a successful call leaves row 1 unexpired at that time |
| TokenCache.SecondCallUsesCache | zr-controller-api/app/zoom_utils/get_token.py:59-69 | after a successful call, an immediate second call sends no request and returns the same token |
| ZoomCommands.CameraCommandState | zr-controller-api/app/zoom_utils/zoom_funcs.py:34-37 | `CameraCommand`, with `Json.Truthy`: the camera event names exactly the truthiness of the toggle, and a meeting accept is not a camera event |
| ZoomCommands.EndpointRoomRoundTrip | zr-controller-api/app/zoom_utils/zoom_funcs.py:31 | `EventsEndpoint`: the events endpoint can be read back to the room it was built from |
| ZoomCommands.EventsEndpointInjective | zr-controller-api/app/zoom_utils/zoom_funcs.py:31 | two rooms share an endpoint exactly when they are the same room |
| ZoomCommands.BearerTokenRoundTrip | zr-controller-api/app/zoom_utils/zoom_funcs.py:11-17 | `BearerHeaders`: the authorization header carries exactly the access token after `Bearer `, with a JSON content type |
| ZoomCommands.StatusResponse | zr-controller-api/app/zoom_utils/zoom_funcs.py:46-50 | the view status is Zoom's status; the success message appears exactly on 202, and every other status gets 'An error occurred calling Zoom Cloud' |
| ZoomCommands.SendEvent | zr-controller-api/app/zoom_utils/zoom_funcs.py:43-50 | the token is obtained once, through the cache; a failed token call sends nothing and is the error raised; otherwise exactly one PATCH with the event goes out; a response maps to Zoom's status and no response raises |
| ZoomCommands.ToggleCameraRequest | zr-controller-api/app/zoom_utils/zoom_funcs.py:30-43 | `ToggleCamera`, with `CommandBody`: the camera request is a PATCH under the API URL to the chosen room (the configured room by default), authorised by the cached token, whose `method` reads back to the toggle's truthiness |
| ZoomCommands.ToggleCameraOutcome | zr-controller-api/app/zoom_utils/zoom_funcs.py:43-50 | `ToggleCamera`: the camera view keeps Zoom's status, reports success exactly on 202 and otherwise the cloud error; no response raises |
| ZoomCommands.AcceptMeetingOutcome | zr-controller-api/app/zoom_utils/zoom_funcs.py:52-69 | `AcceptMeeting`: sends `zoomroom.meeting_accept` to the chosen room (the fixed default room when none is given), keeps Zoom's status, reports joining exactly on 202 and the cloud error on every other status |
| ZoomCommands.DefaultRooms | zr-controller-api/app/zoom_utils/zoom_funcs.py:30-52 | omitting the room equals naming the default; the meeting-accept default does not depend on the configured room |
| ZoomCommands.TokenCallIgnoresRoom | zr-controller-api/app/zoom_utils/zoom_funcs.py:9-12 | the token call does not depend on the configured room |
| ZoomCommands.ZoomroomsList | zr-controller-api/app/zoom_utils/zoom_funcs.py:19-23 | listing rooms obtains the token once and sends one GET to `/rooms` with the Bearer headers, or nothing when the token call failed |
| ZoomCommands.ZoomroomsListResult | zr-controller-api/app/zoom_utils/zoom_funcs.py:19-28 | the list succeeds exactly when the reply is a JSON object with `rooms`, returns that field unchanged, raises `TypeError` on a non-object, and does not depend on the status code |
| ApiRoutes.Index | zr-controller-api/app/routes/api.py:8-10 | the welcome view answers 200 with the single `message` 'Welcome to the API!' |
| ApiRoutes.ToggleCameraRoute | zr-controller-api/app/routes/api.py:13-29 | a body that is not JSON is refused by the framework; a JSON document that is not an object makes the view raise; every answer it gives is 200 or 400 |
| ApiRoutes.InBoolListIff | zr-controller-api/app/routes/api.py:21 | `InBoolList`, through `Json.EqualsBool`: `data in [True, False]` holds exactly for booleans, 0, 1, 0.0 and 1.0 |
| ApiRoutes.ToggleCameraAccepts | zr-controller-api/app/routes/api.py:19-29 | on an object, the view answers 200 with the success message exactly when `cameraState` is boolean-like, and 400 with a single `error` otherwise: 'cameraState must be a boolean' for a present non-null value, 'cameraState is required' for a missing or null one |
| ApiRoutes.ToggleCameraRequired | zr-controller-api/app/routes/api.py:19-20 | a missing field and an explicit `null` both get "cameraState is required"; any other value gets a different answer |
| ApiRoutes.ToggleCameraOnlyReadsState | zr-controller-api/app/routes/api.py:15 | the answer depends on the `cameraState` field alone |

## Left out

- The C++ Zoom Rooms SDK headers, `main.cpp`, the React front end, the Flask application factory and configuration loading, and `init_db.py` are not part of this model. They are outside the backend's core.
- The `print` logging in every function is left out, because it has no effect on results.
- The branch on `data == True` in `toggle_camera` (`api.py:23-28`) only prints, so the model has no counterpart for it.
- Concurrent requests are left out. The model describes one call at a time, so the lost-update race between two refreshes is not modelled.
- Actual network I/O, timeouts and the database engine are replaced by the `World` and `zoom` inputs. Every failure of a database query is one boolean per query.
- TokenModel.NextId: the id of an inserted row follows SQLite's rowid rule, which gives 1 in an empty table and otherwise one more than the largest id. The engine is whatever `DB_URI` names (`instance/config.py:16`). An engine that numbers rows from a sequence need not give id 1 to the first row that is kept, for instance after a rolled-back insert. On such an engine the results that row 1 is the only row (`TokenCache.Save`, `TokenCache.FetchKeepsSingleton`, `TokenCache.ReturnedTokenIsStored`) are not promised. The length check on commit below is the rule of an engine that enforces `String(1000)`, which SQLite does not, so the two rules come from different engines.
- ApiRoutes.ToggleCameraRoute: a body that is not JSON is modelled as Werkzeug 2.1 or later (Flask 2.2 or later) treats it: `request.json` refuses the request before the view runs (`FrameworkRejected`), with a 400, or a 415 from Werkzeug 2.3. With earlier Werkzeug, `request.json` is `None` for such a request, `.get` raises `AttributeError`, and the answer is a 500 (`Crashed`). The code does not pin a Flask or Werkzeug version. The route also accepts GET (`api.py:13`), which usually has no JSON body, so this case is the common one there.
- Database failures on commit, other than the length limit, are not modelled. A rejected commit is modelled only for a token longer than `String(1000)`. SQLite does not enforce that length, so on SQLite such a commit would succeed.
- TokenCache.ParseTokenReply: an `expires_in` that decodes to a float is refused as `UnsupportedValue`, because fractional seconds are not modelled. Python would accept it and add microseconds.
- TokenCache.ParseTokenReply: an `access_token` that is not a string is refused as `UnsupportedValue`. In Python the non-string value would reach the database and fail or be coerced there.
- `json.loads` also accepts `NaN` and `Infinity`, but the JSON values here are finite. This is why `ApiRoutes.InBoolListIff` does not consider NaN.
- CivilTime.FormatInstant: `%Y` is modelled as a four-digit year padded with zeros. glibc's `strftime` writes years before 1000 without padding, and there the string order would differ. From a present-day clock such a year needs an identity-provider reply with an `expires_in` of about −3.2·10^10 seconds (about −1026 years) or less.
- The clock has a resolution of whole seconds, so the microseconds of `datetime.now()` are not modelled. Every comparison goes through `strftime`, which drops them. Adding whole seconds does not change the truncated value, so no comparison changes, but the stored datetime in the model has no microseconds.
- `ROOM_ID` is read from the configuration but is absent from `instance/config.py`. It is the `roomId` field of `Config`, and importing the module without it is not modelled.
- `Http.Fault` collapses the types of the exceptions to the cases that matter here. Each of them becomes a 500 response from Flask.
- The error body of Flask's 500 and 4xx pages is not modelled. Only `Crashed` and `FrameworkRejected` are recorded.

=== FILE: api_routes.dfy ===
/**
 * The HTTP routes of `routes/api.py`: a welcome message and the `/toggle-camera` handler,
 * which validates the `cameraState` field of the JSON request body. The handler does not
 * call the Zoom layer.
 */
module ApiRoutes {

  import opened Wrappers
  import opened Json
  import opened Http

  /** The request body as Flask's `request.json` sees it: not JSON at all, or a decoded document. */
  datatype RequestBody = NoJson | JsonBody(doc: Json)

  /**
   * What a route does with a request: it returns a view result; Flask refuses the request
   * before the view body runs (a body that is not JSON); or the view raises and Flask answers 500.
   */
  datatype HandlerResult = Responded(response: Response) | FrameworkRejected | Crashed

  /** The status Flask gives a returned dict when the view names none. */
  const DefaultStatus := 200

  const BadRequest := 400

  const Welcome := "Welcome to the API!"
  const StateRequired := "cameraState is required"
  const StateNotBoolean := "cameraState must be a boolean"

  /** `index()`: the welcome message with the default status. */
  function Index(): (r: Response)
    ensures r.status == DefaultStatus && r.body.Keys == {"message"} && r.body["message"] == Welcome
  {
    Response(map["message" := Welcome], DefaultStatus)
  }

  /** Python's `data in [True, False]`: equal to `True` or to `False` under `==`. */
  predicate InBoolList(v: Json) {
    EqualsBool(v, true) || EqualsBool(v, false)
  }

  /**
   * `toggle_camera()`. `request.json.get` raises on a document that is not an object; a
   * missing or `null` field is "required"; a value that is neither `== True` nor `== False`
   * is "not a boolean"; everything else is accepted.
   */
  function ToggleCameraRoute(body: RequestBody): (r: HandlerResult)
    ensures body.NoJson? <==> r.FrameworkRejected?
    ensures r.Crashed? <==> body.JsonBody? && !body.doc.JObject?
    ensures r.Responded? ==> r.response.status in {DefaultStatus, BadRequest}
  {
    match body
    case NoJson => FrameworkRejected
    case JsonBody(doc) =>
      if !doc.JObject? then Crashed
      else
        var data := Field(doc, "cameraState");
        if data.None? || data.value.JNull? then Responded(Response(map["error" := StateRequired], BadRequest))
        else if !InBoolList(data.value) then Responded(Response(map["error" := StateNotBoolean], BadRequest))
        else Responded(Response(map["message" := CameraToggled], DefaultStatus))
  }

  /**
   * The values the handler accepts, listed independently: the two booleans and the numbers
   * Python finds equal to them.
   */
  predicate BooleanLike(v: Json) {
    v.JBool? || v == JInt(0) || v == JInt(1) || v == JFloat(0.0) || v == JFloat(1.0)
  }

  lemma InBoolListIff(v: Json)
    ensures InBoolList(v) <==> BooleanLike(v)
  {
  }

  /**
   * On a JSON object, the handler answers 200 with the success message exactly when
   * `cameraState` holds a boolean-like value, and 400 with an `error` otherwise.
   */
  lemma ToggleCameraAccepts(fields: map<string, Json>)
    ensures var r := ToggleCameraRoute(JsonBody(JObject(fields)));
      && r.Responded?
      && (r.response.status == DefaultStatus <==> "cameraState" in fields && BooleanLike(fields["cameraState"]))
      && (r.response.status == DefaultStatus ==> r.response.body == map["message" := CameraToggled])
      && (r.response.status != DefaultStatus ==> r.response.status == BadRequest && r.response.body.Keys == {"error"})
      && (r.response.status != DefaultStatus ==>
            r.response.body["error"] ==
              if "cameraState" in fields && !fields["cameraState"].JNull? then StateNotBoolean else StateRequired)
  {
    if "cameraState" in fields {
      InBoolListIff(fields["cameraState"]);
    }
  }

  /** A missing field and an explicit `null` get the same "required" answer; any other value gets past that check. */
  lemma ToggleCameraRequired(fields: map<string, Json>)
    ensures ToggleCameraRoute(JsonBody(JObject(fields - {"cameraState"})))
         == ToggleCameraRoute(JsonBody(JObject(fields["cameraState" := JNull])))
         == Responded(Response(map["error" := StateRequired], BadRequest))
    ensures "cameraState" in fields && !fields["cameraState"].JNull? ==>
      ToggleCameraRoute(JsonBody(JObject(fields))).response.body != map["error" := StateRequired]
  {
    assert "cameraState" !in (fields - {"cameraState"});
    if "cameraState" in fields && !fields["cameraState"].JNull? {
      var body := ToggleCameraRoute(JsonBody(JObject(fields))).response.body;
      if InBoolList(fields["cameraState"]) {
        assert "error" !in body;
      } else {
        assert body["error"] == StateNotBoolean != StateRequired;
      }
    }
  }

  /** The answer depends on the `cameraState` field alone. */
  lemma ToggleCameraOnlyReadsState(f1: map<string, Json>, f2: map<string, Json>)
    requires ("cameraState" in f1 <==> "cameraState" in f2)
    requires "cameraState" in f1 ==> f1["cameraState"] == f2["cameraState"]
    ensures ToggleCameraRoute(JsonBody(JObject(f1))) == ToggleCameraRoute(JsonBody(JObject(f2)))
  {
  }
}

=== FILE: base64.dfy ===
/** The base 64 encoding of section 4 of RFC 4648 (standard alphabet, `=` padding). */
module Base64 {

  import opened Wrappers
  import opened Utf8

  /** The 64-character alphabet: `A`-`Z`, `a`-`z`, `0`-`9`, `+`, `/`. */
  function Alphabet(i: int): (c: char)
    requires 0 <= i < 64
    ensures InAlphabet(c) && c != '='
  {
    if i < 26 then ('A' as int + i) as char
    else if i < 52 then ('a' as int + (i - 26)) as char
    else if i < 62 then ('0' as int + (i - 52)) as char
    else if i == 62 then '+'
    else '/'
  }

  predicate InAlphabet(c: char) {
    ('A' <= c <= 'Z') || ('a' <= c <= 'z') || ('0' <= c <= '9') || c == '+' || c == '/'
  }

  /** The 6-bit value an alphabet character stands for. */
  function IndexOf(c: char): (i: int)
    requires InAlphabet(c)
    ensures 0 <= i < 64
  {
    if 'A' <= c <= 'Z' then c as int - 'A' as int
    else if 'a' <= c <= 'z' then c as int - 'a' as int + 26
    else if '0' <= c <= '9' then c as int - '0' as int + 52
    else if c == '+' then 62
    else 63
  }

  lemma AlphabetIndex(i: int)
    requires 0 <= i < 64
    ensures IndexOf(Alphabet(i)) == i
  {
  }

  lemma IndexAlphabet(c: char)
    requires InAlphabet(c)
    ensures Alphabet(IndexOf(c)) == c
  {
  }

  /** Three bytes, 24 bits, written as four 6-bit characters. */
  function EncodeTriple(b0: Byte, b1: Byte, b2: Byte): string {
    [Alphabet(b0 / 4), Alphabet(b0 % 4 * 16 + b1 / 16), Alphabet(b1 % 16 * 4 + b2 / 64), Alphabet(b2 % 64)]
  }

  /**
   * `base64.b64encode`: whole groups of three bytes become four characters; a final group of
   * one or two bytes is zero-filled and padded with `==` or `=`.
   */
  function Encode(b: seq<Byte>): (s: string)
    ensures |s| == 4 * ((|b| + 2) / 3)
    decreases |b|
  {
    if |b| == 0 then ""
    else if |b| == 1 then [Alphabet(b[0] / 4), Alphabet(b[0] % 4 * 16), '=', '=']
    else if |b| == 2 then [Alphabet(b[0] / 4), Alphabet(b[0] % 4 * 16 + b[1] / 16), Alphabet(b[1] % 16 * 4), '=']
    else EncodeTriple(b[0], b[1], b[2]) + Encode(b[3..])
  }

  /**
   * Decodes one group of four characters. A padded group (`xx==` or `xxx=`) is accepted only
   * when it is the `last` group and its unused bits are zero.
   */
  function DecodeQuad(q: string, last: bool): (r: Option<seq<Byte>>)
    requires |q| == 4
    ensures r.Some? ==> 1 <= |r.value| <= 3 && (|r.value| < 3 ==> last)
  {
    if !InAlphabet(q[0]) || !InAlphabet(q[1]) then None
    else
      var i0, i1 := IndexOf(q[0]), IndexOf(q[1]);
      if q[2] == '=' then
        if last && q[3] == '=' && i1 % 16 == 0 then Some([i0 * 4 + i1 / 16]) else None
      else if !InAlphabet(q[2]) then None
      else
        var i2 := IndexOf(q[2]);
        if q[3] == '=' then
          if last && i2 % 4 == 0 then Some([i0 * 4 + i1 / 16, i1 % 16 * 16 + i2 / 4]) else None
        else if !InAlphabet(q[3]) then None
        else Some([i0 * 4 + i1 / 16, i1 % 16 * 16 + i2 / 4, i2 % 4 * 64 + IndexOf(q[3])])
  }

  /**
   * The inverse of `Encode`: accepts exactly the canonical encodings (padding only at the end,
   * unused bits zero) and gives back the bytes; `None` for any other string.
   */
  function Decode(s: string): (r: Option<seq<Byte>>)
    decreases |s|
  {
    if |s| == 0 then Some([])
    else if |s| < 4 then None
    else match DecodeQuad(s[..4], |s| == 4)
      case None => None
      case Some(g) =>
        if |g| < 3 then Some(g)
        else match Decode(s[4..])
          case None => None
          case Some(rest) => Some(g + rest)
  }

  lemma TripleRoundTrip(b0: Byte, b1: Byte, b2: Byte)
    ensures var i0, i1, i2, i3 := b0 / 4, b0 % 4 * 16 + b1 / 16, b1 % 16 * 4 + b2 / 64, b2 % 64;
      && i0 * 4 + i1 / 16 == b0
      && i1 % 16 * 16 + i2 / 4 == b1
      && i2 % 4 * 64 + i3 == b2
  {
    var i1, i2 := b0 % 4 * 16 + b1 / 16, b1 % 16 * 4 + b2 / 64;
    assert i1 / 16 == b0 % 4 && i1 % 16 == b1 / 16;
    assert i2 / 4 == b1 % 16 && i2 % 4 == b2 / 64;
  }

  lemma DecodeOne(b0: Byte)
    ensures DecodeQuad([Alphabet(b0 / 4), Alphabet(b0 % 4 * 16), '=', '='], true) == Some([b0])
  {
    var i0, i1 := b0 / 4, b0 % 4 * 16;
    AlphabetIndex(i0);
    AlphabetIndex(i1);
    var q := [Alphabet(i0), Alphabet(i1), '=', '='];
    assert IndexOf(q[0]) == i0 && IndexOf(q[1]) == i1;
    assert q[2] == '=' && q[3] == '=';
    assert i1 % 16 == 0;
    assert i0 * 4 + i1 / 16 == b0;
  }

  lemma DecodeTwo(b0: Byte, b1: Byte)
    ensures DecodeQuad([Alphabet(b0 / 4), Alphabet(b0 % 4 * 16 + b1 / 16), Alphabet(b1 % 16 * 4), '='], true)
      == Some([b0, b1])
  {
    var i0, i1, i2 := b0 / 4, b0 % 4 * 16 + b1 / 16, b1 % 16 * 4;
    AlphabetIndex(i0);
    AlphabetIndex(i1);
    AlphabetIndex(i2);
    var q := [Alphabet(i0), Alphabet(i1), Alphabet(i2), '='];
    assert IndexOf(q[0]) == i0 && IndexOf(q[1]) == i1 && IndexOf(q[2]) == i2;
    assert q[2] != '=' && q[3] == '=';
    assert i2 % 4 == 0;
    TripleRoundTrip(b0, b1, 0);
    assert i0 * 4 + i1 / 16 == b0 && i1 % 16 * 16 + i2 / 4 == b1;
  }

  lemma DecodeTriple(b0: Byte, b1: Byte, b2: Byte, last: bool)
    ensures DecodeQuad(EncodeTriple(b0, b1, b2), last) == Some([b0, b1, b2])
  {
    var i0, i1, i2, i3 := b0 / 4, b0 % 4 * 16 + b1 / 16, b1 % 16 * 4 + b2 / 64, b2 % 64;
    AlphabetIndex(i0);
    AlphabetIndex(i1);
    AlphabetIndex(i2);
    AlphabetIndex(i3);
    var q := EncodeTriple(b0, b1, b2);
    assert IndexOf(q[0]) == i0 && IndexOf(q[1]) == i1 && IndexOf(q[2]) == i2 && IndexOf(q[3]) == i3;
    assert q[2] != '=' && q[3] != '=';
    TripleRoundTrip(b0, b1, b2);
  }

  /** A full group in front of more text decodes to its three bytes followed by the rest. */
  lemma DecodeFullGroup(t: string, g: seq<Byte>, rest: string, r: seq<Byte>)
    requires |t| == 4 && |rest| > 0
    requires DecodeQuad(t, false) == Some(g) && |g| == 3
    requires Decode(rest) == Some(r)
    ensures Decode(t + rest) == Some(g + r)
  {
    var s := t + rest;
    assert s[..4] == t && s[4..] == rest;
  }

  /** A string of one group decodes as a last group. */
  lemma DecodeLastGroup(q: string)
    requires |q| == 4
    ensures Decode(q) == DecodeQuad(q, true)
  {
    assert q[..4] == q && q[4..] == [];
    match DecodeQuad(q, true)
    case None =>
    case Some(g) =>
      if |g| == 3 {
        assert g + [] == g;
      }
  }

  lemma DecodeEncodeOne(b: seq<Byte>)
    requires |b| == 1
    ensures Decode(Encode(b)) == Some(b)
  {
    var q := [Alphabet(b[0] / 4), Alphabet(b[0] % 4 * 16), '=', '='];
    assert Encode(b) == q;
    DecodeOne(b[0]);
    DecodeLastGroup(q);
    assert [b[0]] == b;
  }

  lemma DecodeEncodeTwo(b: seq<Byte>)
    requires |b| == 2
    ensures Decode(Encode(b)) == Some(b)
  {
    var b0, b1 := b[0], b[1];
    var q := [Alphabet(b0 / 4), Alphabet(b0 % 4 * 16 + b1 / 16), Alphabet(b1 % 16 * 4), '='];
    assert Encode(b) == q;
    DecodeTwo(b0, b1);
    DecodeLastGroup(q);
    assert [b0, b1] == b;
  }

  lemma DecodeEncodeTriple(b: seq<Byte>)
    requires |b| == 3
    ensures Decode(Encode(b)) == Some(b)
  {
    var s := Encode(b);
    assert Encode(b[3..]) == [];
    assert s == EncodeTriple(b[0], b[1], b[2]);
    DecodeTriple(b[0], b[1], b[2], true);
    DecodeLastGroup(s);
    assert [b[0], b[1], b[2]] == b;
  }

  /** Decoding an encoding gives the bytes back. */
  lemma {:induction false} DecodeEncode(b: seq<Byte>)
    ensures Decode(Encode(b)) == Some(b)
    decreases |b|
  {
    if |b| == 1 {
      DecodeEncodeOne(b);
    } else if |b| == 2 {
      DecodeEncodeTwo(b);
    } else if |b| == 3 {
      DecodeEncodeTriple(b);
    } else if |b| > 3 {
      DecodeEncode(b[3..]);
      DecodeEncodeStep(b);
    }
  }

  lemma SplitGroup(b: seq<Byte>)
    requires |b| >= 3
    ensures [b[0], b[1], b[2]] + b[3..] == b
  {
  }

  /** The inductive step: a leading full group in front of an encoding that decodes correctly. */
  lemma DecodeEncodeStep(b: seq<Byte>)
    requires |b| > 3 && Decode(Encode(b[3..])) == Some(b[3..])
    ensures Decode(Encode(b)) == Some(b)
  {
    var t, rest := EncodeTriple(b[0], b[1], b[2]), Encode(b[3..]);
    assert Encode(b) == t + rest;
    DecodeTriple(b[0], b[1], b[2], false);
    SplitGroup(b);
    DecodeFullGroup(t, [b[0], b[1], b[2]], rest, b[3..]);
  }

  lemma EncodeOneGroup(q: string)
    requires |q| == 4 && DecodeQuad(q, true).Some? && |DecodeQuad(q, true).value| == 1
    ensures Encode(DecodeQuad(q, true).value) == q
  {
    var i0, i1 := IndexOf(q[0]), IndexOf(q[1]);
    IndexAlphabet(q[0]);
    IndexAlphabet(q[1]);
    assert q[2] == '=' && q[3] == '=' && i1 % 16 == 0;
    var b0 := i0 * 4 + i1 / 16;
    assert DecodeQuad(q, true).value == [b0];
    assert b0 / 4 == i0 && b0 % 4 * 16 == i1;
    assert Encode([b0]) == [Alphabet(i0), Alphabet(i1), '=', '='];
  }

  lemma EncodeTwoGroup(q: string)
    requires |q| == 4 && DecodeQuad(q, true).Some? && |DecodeQuad(q, true).value| == 2
    ensures Encode(DecodeQuad(q, true).value) == q
  {
    var i0, i1, i2 := IndexOf(q[0]), IndexOf(q[1]), IndexOf(q[2]);
    IndexAlphabet(q[0]);
    IndexAlphabet(q[1]);
    IndexAlphabet(q[2]);
    assert q[2] != '=' && q[3] == '=' && i2 % 4 == 0;
    var b0, b1 := i0 * 4 + i1 / 16, i1 % 16 * 16 + i2 / 4;
    assert DecodeQuad(q, true).value == [b0, b1];
    assert b0 / 4 == i0 && b0 % 4 * 16 + b1 / 16 == i1 && b1 % 16 * 4 == i2;
    assert Encode([b0, b1]) == [Alphabet(i0), Alphabet(i1), Alphabet(i2), '='];
  }

  lemma EncodeThreeGroup(q: string, last: bool)
    requires |q| == 4 && DecodeQuad(q, last).Some? && |DecodeQuad(q, last).value| == 3
    ensures var g := DecodeQuad(q, last).value; EncodeTriple(g[0], g[1], g[2]) == q
  {
    var i0, i1, i2, i3 := IndexOf(q[0]), IndexOf(q[1]), IndexOf(q[2]), IndexOf(q[3]);
    IndexAlphabet(q[0]);
    IndexAlphabet(q[1]);
    IndexAlphabet(q[2]);
    IndexAlphabet(q[3]);
    assert q[2] != '=' && q[3] != '=';
    var b0, b1, b2 := i0 * 4 + i1 / 16, i1 % 16 * 16 + i2 / 4, i2 % 4 * 64 + i3;
    assert DecodeQuad(q, last).value == [b0, b1, b2];
    assert b0 / 4 == i0 && b0 % 4 * 16 + b1 / 16 == i1;
    assert b1 % 16 * 4 + b2 / 64 == i2 && b2 % 64 == i3;
  }

  /** Every string the decoder accepts is the encoding of what it decodes to. */
  lemma {:induction false} EncodeDecode(s: string)
    requires Decode(s).Some?
    ensures Encode(Decode(s).value) == s
    decreases |s|
  {
    if |s| > 0 {
      var g := DecodeQuad(s[..4], |s| == 4).value;
      if |g| == 1 {
        EncodeOneGroup(s[..4]);
        assert s == s[..4];
      } else if |g| == 2 {
        EncodeTwoGroup(s[..4]);
        assert s == s[..4];
      } else {
        EncodeThreeGroup(s[..4], |s| == 4);
        EncodeDecode(s[4..]);
        var rest := Decode(s[4..]).value;
        assert (g + rest)[3..] == rest;
        assert g + rest == [g[0], g[1], g[2]] + rest;
        assert s == s[..4] + s[4..];
      }
    }
  }
}

=== FILE: civil_time.dfy ===
/**
 * Wall-clock time as the token cache sees it.
 *
 * The cache stores the expiry as a `datetime` and decides validity by formatting both the
 * expiry and the current time with `strftime('%Y-%m-%d %H:%M:%S')` and comparing the two
 * strings with Python's `<`. This module models instants, their proleptic Gregorian calendar
 * fields, the fixed-width format and Python's string order, and proves that on formatted
 * instants the string order is exactly the chronological order.
 */
module CivilTime {

  import opened Wrappers

  /** Whole seconds elapsed since 0001-01-01 00:00:00, the earliest value of Python's `datetime`. */
  type Instant = nat

  const SecondsPerDay: nat := 86400

  /** `datetime.MAXYEAR`: a `datetime` whose year would exceed it cannot be built. */
  const MaxYear: int := 9999

  predicate IsLeap(y: int) {
    y % 4 == 0 && (y % 100 != 0 || y % 400 == 0)
  }

  function DaysInMonth(y: int, m: int): nat {
    if m == 2 then (if IsLeap(y) then 29 else 28)
    else if m == 4 || m == 6 || m == 9 || m == 11 then 30
    else 31
  }

  /** Number of days in months `m` through December of year `y`. */
  function DaysFrom(y: int, m: int): nat
    requires 1 <= m <= 13
    decreases 13 - m
  {
    if m == 13 then 0 else DaysInMonth(y, m) + DaysFrom(y, m + 1)
  }

  function DaysInYear(y: int): nat {
    DaysFrom(y, 1)
  }

  /** Year and zero-based day of the year of the day lying `d` days after January 1 of year `y`. */
  function YearDay(d: nat, y: int): (r: (int, nat))
    ensures r.0 >= y && r.1 < DaysInYear(r.0)
    decreases d
  {
    if d < DaysInYear(y) then (y, d) else YearDay(d - DaysInYear(y), y + 1)
  }

  /** Month and one-based day of month of zero-based day `doy` counted from the first of month `m` of year `y`. */
  function MonthDay(doy: nat, y: int, m: int): (r: (int, int))
    requires 1 <= m <= 12 && doy < DaysFrom(y, m)
    ensures m <= r.0 <= 12 && 1 <= r.1 <= DaysInMonth(y, r.0)
    decreases 12 - m
  {
    if doy < DaysInMonth(y, m) then (m, doy + 1)
    else MonthDay(doy - DaysInMonth(y, m), y, m + 1)
  }

  /** The fields of a naive Python `datetime` at whole-second resolution. */
  datatype DateTime = DateTime(year: int, month: int, day: int, hour: int, minute: int, second: int)

  /** Python's `datetime.__lt__`: the field tuples compared from the most significant field down. */
  predicate Before(a: DateTime, b: DateTime) {
    if a.year != b.year then a.year < b.year
    else if a.month != b.month then a.month < b.month
    else if a.day != b.day then a.day < b.day
    else if a.hour != b.hour then a.hour < b.hour
    else if a.minute != b.minute then a.minute < b.minute
    else a.second < b.second
  }

  /** Calendar fields of an instant in the proleptic Gregorian calendar. */
  function ToCivil(t: Instant): (c: DateTime)
    ensures c.year >= 1 && 1 <= c.month <= 12 && 1 <= c.day <= 31
    ensures 0 <= c.hour < 24 && 0 <= c.minute < 60 && 0 <= c.second < 60
  {
    var yd := YearDay(t / SecondsPerDay, 1);
    var md := MonthDay(yd.1, yd.0, 1);
    var s := t % SecondsPerDay;
    DateTime(yd.0, md.0, md.1, s / 3600, s % 3600 / 60, s % 60)
  }

  /** The day of the month never exceeds that month's length: 29 February only in a leap year. */
  lemma ToCivilValid(t: Instant)
    ensures var c := ToCivil(t);
      && c.year >= 1 && 1 <= c.month <= 12 && 1 <= c.day <= DaysInMonth(c.year, c.month)
      && 0 <= c.hour < 24 && 0 <= c.minute < 60 && 0 <= c.second < 60
  {
    var yd := YearDay(t / SecondsPerDay, 1);
    var md := MonthDay(yd.1, yd.0, 1);
    assert ToCivil(t).day == md.1 <= DaysInMonth(yd.0, md.0);
  }

  /** Days from January 1 of year 1 to January 1 of year `y`, in closed form. */
  function DaysBeforeYear(y: int): int {
    var p := y - 1;
    365 * p + p / 4 - p / 100 + p / 400
  }

  /** Python's `datetime` range: from 0001-01-01 00:00:00 up to, but excluding, January 1 of year 10000. */
  predicate InRange(t: Instant) {
    t < DaysBeforeYear(MaxYear + 1) * SecondsPerDay
  }

  /** An instant that a Python `datetime` can represent. */
  type Moment = t: Instant | InRange(t) witness 0

  lemma DaysInYearValue(y: int)
    ensures DaysInYear(y) == if IsLeap(y) then 366 else 365
  {
    assert DaysFrom(y, 13) == 0;
    assert DaysFrom(y, 12) == 31;
    assert DaysFrom(y, 11) == 61;
    assert DaysFrom(y, 10) == 92;
    assert DaysFrom(y, 9) == 122;
    assert DaysFrom(y, 8) == 153;
    assert DaysFrom(y, 7) == 184;
    assert DaysFrom(y, 6) == 214;
    assert DaysFrom(y, 5) == 245;
    assert DaysFrom(y, 4) == 275;
    assert DaysFrom(y, 3) == 306;
  }

  /** The closed form adds one year's length per year. */
  lemma DaysBeforeYearStep(y: int)
    ensures DaysBeforeYear(y + 1) == DaysBeforeYear(y) + DaysInYear(y)
  {
    DaysInYearValue(y);
    DivStep(y, 4);
    DivStep(y, 100);
    DivStep(y, 400);
  }

  /** Counting multiples of `k`: the count up to `y` exceeds the count up to `y - 1` exactly when `k` divides `y`. */
  lemma DivStep(y: int, k: int)
    requires k == 4 || k == 100 || k == 400
    ensures y / k == (y - 1) / k + (if y % k == 0 then 1 else 0)
  {
    if k == 4 {
      assert y / 4 == (y - 1) / 4 + (if y % 4 == 0 then 1 else 0);
    } else if k == 100 {
      assert y / 100 == (y - 1) / 100 + (if y % 100 == 0 then 1 else 0);
    } else {
      assert y / 400 == (y - 1) / 400 + (if y % 400 == 0 then 1 else 0);
    }
  }

  lemma {:induction false} DaysBeforeYearMonotone(a: int, b: int)
    requires a <= b
    ensures DaysBeforeYear(a) <= DaysBeforeYear(b)
    decreases b - a
  {
    if a < b {
      DaysBeforeYearStep(a);
      DaysBeforeYearMonotone(a + 1, b);
    }
  }

  /** `YearDay` counts exactly: the year it lands in and the day within it add up to the days walked. */
  lemma {:induction false} YearDayExact(d: nat, y: int)
    ensures DaysBeforeYear(YearDay(d, y).0) + YearDay(d, y).1 == DaysBeforeYear(y) + d
    decreases d
  {
    if d >= DaysInYear(y) {
      DaysBeforeYearStep(y);
      YearDayExact(d - DaysInYear(y), y + 1);
    }
  }

  /** The closed-form range is exactly the instants whose calendar year is at most `MaxYear`. */
  lemma InRangeYear(t: Instant)
    ensures InRange(t) <==> ToCivil(t).year <= MaxYear
  {
    var d := t / SecondsPerDay;
    var r := YearDay(d, 1);
    YearDayExact(d, 1);
    DaysBeforeYearStep(r.0);
    assert t == SecondsPerDay * d + t % SecondsPerDay;
    if r.0 <= MaxYear {
      DaysBeforeYearMonotone(r.0 + 1, MaxYear + 1);
    } else {
      DaysBeforeYearMonotone(MaxYear + 1, r.0);
    }
  }

  /** `dt + timedelta(seconds=delta)`: `None` stands for the `OverflowError` raised outside the `datetime` range. */
  function AddSeconds(t: Moment, delta: int): (r: Option<Moment>)
    ensures r.Some? ==> r.value == t + delta
  {
    if t + delta < 0 then None
    else if InRange(t + delta) then Some(t + delta)
    else None
  }

  /** The addition succeeds exactly when the sum falls in a calendar year from 1 to `MaxYear`. */
  lemma AddSecondsYear(t: Moment, delta: int)
    ensures AddSeconds(t, delta).Some? <==> t + delta >= 0 && ToCivil(t + delta).year <= MaxYear
    ensures AddSeconds(t, delta).Some? ==> AddSeconds(t, delta).value == t + delta
  {
    var sum := t + delta;
    if sum >= 0 {
      InRangeYear(sum);
      assert AddSeconds(t, delta).Some? <==> InRange(sum);
    }
  }

  function Pow10(n: nat): nat {
    if n == 0 then 1 else 10 * Pow10(n - 1)
  }

  function DigitChar(k: int): char
    requires 0 <= k < 10
  {
    ('0' as int + k) as char
  }

  /** The last `width` decimal digits of `n`, zero-padded on the left. */
  function Digits(n: nat, width: nat): (s: string)
    ensures |s| == width
    decreases width
  {
    if width == 0 then "" else Digits(n / 10, width - 1) + [DigitChar(n % 10)]
  }

  /** Every field fits the width `%Y-%m-%d %H:%M:%S` gives it. */
  predicate Fits(c: DateTime) {
    && 0 <= c.year < 10000
    && 0 <= c.month < 100 && 0 <= c.day < 100
    && 0 <= c.hour < 100 && 0 <= c.minute < 100 && 0 <= c.second < 100
  }

  /** `strftime('%Y-%m-%d %H:%M:%S')`, with `%Y` zero-padded to four digits. */
  function Format(c: DateTime): (s: string)
    requires Fits(c)
    ensures |s| == 19
  {
    Digits(c.year, 4) + ("-" + (Digits(c.month, 2) + ("-" + (Digits(c.day, 2) + (" " +
      (Digits(c.hour, 2) + (":" + (Digits(c.minute, 2) + (":" + Digits(c.second, 2))))))))))
  }

  function FormatInstant(t: Moment): (s: string)
    ensures |s| == 19
  {
    InRangeYear(t);
    Format(ToCivil(t))
  }

  /** Python's `<` on `str`: the first differing code point decides, and a proper prefix sorts first. */
  predicate StrLess(a: string, b: string)
    decreases |a|
  {
    if |a| == 0 then |b| > 0
    else if |b| == 0 then false
    else if a[0] != b[0] then a[0] < b[0]
    else StrLess(a[1..], b[1..])
  }

  lemma {:induction false} StrLessIrreflexive(a: string)
    ensures !StrLess(a, a)
    decreases |a|
  {
    if |a| > 0 {
      StrLessIrreflexive(a[1..]);
    }
  }

  /** Comparing two concatenations whose heads have the same length compares the heads first. */
  lemma {:induction false} StrLessConcat(a: string, b: string, c: string, d: string)
    requires |a| == |b|
    ensures StrLess(a + c, b + d) <==> StrLess(a, b) || (a == b && StrLess(c, d))
    decreases |a|
  {
    if |a| == 0 {
      assert a + c == c && b + d == d;
    } else {
      assert (a + c)[0] == a[0] && (b + d)[0] == b[0];
      if a[0] == b[0] {
        assert (a + c)[1..] == a[1..] + c;
        assert (b + d)[1..] == b[1..] + d;
        assert a == [a[0]] + a[1..] && b == [b[0]] + b[1..];
        StrLessConcat(a[1..], b[1..], c, d);
      }
    }
  }

  /** On zero-padded numerals of one width, string order is numeric order and equal strings are equal numbers. */
  lemma {:induction false} DigitsOrder(x: nat, y: nat, w: nat)
    requires x < Pow10(w) && y < Pow10(w)
    ensures StrLess(Digits(x, w), Digits(y, w)) <==> x < y
    ensures Digits(x, w) == Digits(y, w) <==> x == y
    decreases w
  {
    if w > 0 {
      var a, b := Digits(x / 10, w - 1), Digits(y / 10, w - 1);
      var p, q := [DigitChar(x % 10)], [DigitChar(y % 10)];
      assert Digits(x, w) == a + p && Digits(y, w) == b + q;
      DigitsOrder(x / 10, y / 10, w - 1);
      StrLessConcat(a, b, p, q);
      assert StrLess(p, q) <==> x % 10 < y % 10;
      assert x == 10 * (x / 10) + x % 10 && y == 10 * (y / 10) + y % 10;
      if a + p == b + q {
        assert (a + p)[..w - 1] == a && (b + q)[..w - 1] == b;
        assert (a + p)[w - 1] == p[0] && (b + q)[w - 1] == q[0];
      }
    }
  }

  /** One `<digits><separator><rest>` step of the format. */
  lemma FieldStep(x: nat, y: nat, w: nat, sep: string, ra: string, rb: string)
    requires x < Pow10(w) && y < Pow10(w)
    ensures StrLess(Digits(x, w) + (sep + ra), Digits(y, w) + (sep + rb)) <==> x < y || (x == y && StrLess(ra, rb))
  {
    DigitsOrder(x, y, w);
    StrLessIrreflexive(sep);
    StrLessConcat(sep, sep, ra, rb);
    StrLessConcat(Digits(x, w), Digits(y, w), sep + ra, sep + rb);
  }

  lemma Pow10Widths()
    ensures Pow10(2) == 100 && Pow10(4) == 10000
  {
    assert Pow10(1) == 10;
    assert Pow10(3) == 1000;
  }

  /** On dates whose fields fit their widths, the formatted strings sort exactly as the dates do. */
  lemma FormatOrder(a: DateTime, b: DateTime)
    requires Fits(a) && Fits(b)
    ensures StrLess(Format(a), Format(b)) <==> Before(a, b)
  {
    Pow10Widths();
    var sa, sb := Digits(a.second, 2), Digits(b.second, 2);
    DigitsOrder(a.second, b.second, 2);
    var na, nb := Digits(a.minute, 2) + (":" + sa), Digits(b.minute, 2) + (":" + sb);
    FieldStep(a.minute, b.minute, 2, ":", sa, sb);
    var ha, hb := Digits(a.hour, 2) + (":" + na), Digits(b.hour, 2) + (":" + nb);
    FieldStep(a.hour, b.hour, 2, ":", na, nb);
    var da, db := Digits(a.day, 2) + (" " + ha), Digits(b.day, 2) + (" " + hb);
    FieldStep(a.day, b.day, 2, " ", ha, hb);
    var ma, mb := Digits(a.month, 2) + ("-" + da), Digits(b.month, 2) + ("-" + db);
    FieldStep(a.month, b.month, 2, "-", da, db);
    FieldStep(a.year, b.year, 4, "-", ma, mb);
  }

  lemma {:induction false} YearDayMonotone(d1: nat, d2: nat, y: int)
    requires d1 < d2
    ensures var r1, r2 := YearDay(d1, y), YearDay(d2, y);
      r1.0 < r2.0 || (r1.0 == r2.0 && r1.1 < r2.1)
    decreases d1
  {
    if d1 >= DaysInYear(y) {
      YearDayMonotone(d1 - DaysInYear(y), d2 - DaysInYear(y), y + 1);
    }
  }

  lemma {:induction false} MonthDayMonotone(doy1: nat, doy2: nat, y: int, m: int)
    requires 1 <= m <= 12 && doy1 < doy2 < DaysFrom(y, m)
    ensures var r1, r2 := MonthDay(doy1, y, m), MonthDay(doy2, y, m);
      r1.0 < r2.0 || (r1.0 == r2.0 && r1.1 < r2.1)
    decreases 12 - m
  {
    if doy1 >= DaysInMonth(y, m) {
      MonthDayMonotone(doy1 - DaysInMonth(y, m), doy2 - DaysInMonth(y, m), y, m + 1);
    }
  }

  lemma ClockMonotone(s1: nat, s2: nat)
    requires s1 < s2 < SecondsPerDay
    ensures var h1, h2 := s1 / 3600, s2 / 3600;
      var m1, m2 := s1 % 3600 / 60, s2 % 3600 / 60;
      h1 < h2 || (h1 == h2 && (m1 < m2 || (m1 == m2 && s1 % 60 < s2 % 60)))
  {
    assert s1 == 3600 * (s1 / 3600) + 60 * (s1 % 3600 / 60) + s1 % 60;
    assert s2 == 3600 * (s2 / 3600) + 60 * (s2 % 3600 / 60) + s2 % 60;
  }

  /** A later instant has later calendar fields. */
  lemma ToCivilMonotone(t1: Instant, t2: Instant)
    requires t1 < t2
    ensures Before(ToCivil(t1), ToCivil(t2))
  {
    var d1, d2 := t1 / SecondsPerDay, t2 / SecondsPerDay;
    assert t1 == SecondsPerDay * d1 + t1 % SecondsPerDay;
    assert t2 == SecondsPerDay * d2 + t2 % SecondsPerDay;
    if d1 < d2 {
      YearDayMonotone(d1, d2, 1);
      var yd1, yd2 := YearDay(d1, 1), YearDay(d2, 1);
      if yd1.0 == yd2.0 {
        MonthDayMonotone(yd1.1, yd2.1, yd1.0, 1);
      }
    } else {
      ClockMonotone(t1 % SecondsPerDay, t2 % SecondsPerDay);
    }
  }

  /** Chronological order of instants is Python's `datetime` order of their calendar fields. */
  lemma ToCivilOrder(t1: Instant, t2: Instant)
    ensures t1 < t2 <==> Before(ToCivil(t1), ToCivil(t2))
  {
    var c1, c2 := ToCivil(t1), ToCivil(t2);
    if t1 < t2 {
      ToCivilMonotone(t1, t2);
    } else if t2 < t1 {
      ToCivilMonotone(t2, t1);
      BeforeAsymmetric(c2, c1);
    } else {
      BeforeAsymmetric(c1, c2);
    }
  }

  lemma BeforeAsymmetric(a: DateTime, b: DateTime)
    ensures Before(a, b) ==> !Before(b, a)
    ensures !Before(a, a)
  {
  }

  /**
   * The expiry check's string comparison is a time comparison: for any two representable
   * instants, the first formatted string sorts before the second exactly when the first
   * instant is earlier.
   */
  lemma FormatInstantOrder(t1: Moment, t2: Moment)
    ensures StrLess(FormatInstant(t1), FormatInstant(t2)) <==> t1 < t2
  {
    ToCivilOrder(t1, t2);
    InRangeYear(t1);
    InRangeYear(t2);
    FormatOrder(ToCivil(t1), ToCivil(t2));
  }
}

=== FILE: http.dfy ===
/** The HTTP exchanges of the backend, reduced to the values the code looks at. */
module Http {

  import opened Wrappers
  import opened Json

  datatype Verb = Get | Post | Patch

  /** An outbound request as the `requests` library sends it: verb, URL, headers and optional JSON body. */
  datatype Request = Request(verb: Verb, url: string, headers: map<string, string>, body: Option<Json>)

  /**
   * What came back for an outbound request: no response at all (a connection error or timeout,
   * which `requests` raises), or a status code with a body that either decodes as JSON or does not.
   */
  datatype Reply = NoResponse | Reply(status: int, body: Option<Json>)

  /** The exceptions the core lets escape; Flask turns any of them into a 500 response. */
  datatype Fault =
    | ConnectionFailed          // `requests` raised: nothing came back
    | NotJson                   // `json.loads` rejected the reply body
    | NotSubscriptable          // the decoded body is not an object, so `body[key]` raises `TypeError`
    | KeyMissing(key: string)   // `body[key]` raised `KeyError`
    | UnsupportedValue(key: string) // the field holds a JSON type this model does not carry through
    | DateOverflow              // `datetime + timedelta` left the representable range
    | StorageFailed             // the database query raised
    | CommitRejected            // the database refused the row at commit

  /** The success message of both the camera route and the camera command. */
  const CameraToggled := "Camera toggled successfully!"

  /** A view result: a JSON object of strings and a status code. */
  datatype Response = Response(body: map<string, string>, status: int)

  /** `body[key]` on a decoded reply body. */
  function Subscript(body: Json, key: string): (r: Result<Json, Fault>)
    ensures r.Ok? <==> Field(body, key).Some?
    ensures r.Ok? ==> Some(r.value) == Field(body, key)
    ensures r.Err? ==> r.error == (if body.JObject? then KeyMissing(key) else NotSubscriptable)
  {
    if !body.JObject? then Err(NotSubscriptable)
    else if key !in body.fields then Err(KeyMissing(key))
    else Ok(body.fields[key])
  }
}

=== FILE: json.dfy ===
/** Values produced by Python's `json` decoder, and the parts of Python's semantics the handlers apply to them. */
module Json {

  import opened Wrappers

  /**
   * A decoded JSON document: `null`, `true`/`false`, integers (Python `int`), finite numbers
   * with a fraction or exponent (Python `float`), strings, arrays and objects.
   */
  datatype Json =
    | JNull
    | JBool(b: bool)
    | JInt(i: int)
    | JFloat(r: real)
    | JString(s: string)
    | JArray(items: seq<Json>)
    | JObject(fields: map<string, Json>)

  /** Python truthiness (`if v:`) of a decoded value: `None`, `False`, zero and empty containers are false. */
  predicate Truthy(v: Json) {
    match v
    case JNull => false
    case JBool(b) => b
    case JInt(i) => i != 0
    case JFloat(r) => r != 0.0
    case JString(s) => |s| > 0
    case JArray(items) => |items| > 0
    case JObject(fields) => |fields| > 0
  }

  /** The number Python's `==` compares: `bool` is a subclass of `int`, and `int` compares equal to an equal `float`. */
  function NumericValue(v: Json): Option<real> {
    match v
    case JBool(b) => Some(if b then 1.0 else 0.0)
    case JInt(i) => Some(i as real)
    case JFloat(r) => Some(r)
    case _ => None
  }

  /** Python's `v == b` between a decoded value and the constant `True` or `False`. */
  predicate EqualsBool(v: Json, b: bool) {
    NumericValue(v) == Some(if b then 1.0 else 0.0)
  }

  /** `d.get(key)` on a decoded object; `None` also when the document is not an object. */
  function Field(v: Json, key: string): Option<Json> {
    if v.JObject? && key in v.fields then Some(v.fields[key]) else None
  }
}

=== FILE: token_cache.dfy ===
/**
 * The token cache of `zoom_utils/get_token.py`: one OAuth2 client-credentials access token,
 * kept in the row with id 1 of the `token` table and refreshed from the identity provider
 * when the row is missing, unreadable or expired.
 *
 * Everything outside the process is an input: the wall clock and the identity provider are
 * given as the successive values they produce during one call (`World`), and the table is
 * threaded through as a value.
 */
module TokenCache {

  import opened Wrappers
  import opened Json
  import opened CivilTime
  import Utf8
  import Base64
  import opened Http
  import opened TokenModel

  /** The Flask configuration values the backend reads once, at import time. */
  datatype Config = Config(
    accountId: string,
    clientId: string,
    clientSecret: string,
    authUrl: string,
    apiUrl: string,
    roomId: string)

  /**
   * What the outside world does during one call: the `k`-th reading of the wall clock, the
   * `k`-th reply of the identity provider, and whether the `k`-th database query raises.
   */
  datatype World = World(clock: nat -> Moment, idp: nat -> Reply, dbFails: nat -> bool)

  /** Every reading of the clock during the call gives the same instant. */
  ghost predicate FixedClock(w: World, c: Moment) {
    forall k :: w.clock(k) == c
  }

  /** The Basic credential: Base64 of the UTF-8 bytes of `CLIENT_ID:CLIENT_SECRET`. */
  function BasicCredential(cfg: Config): string {
    Base64.Encode(Utf8.Encode(cfg.clientId + ":" + cfg.clientSecret))
  }

  /** The headers of every identity-provider request. */
  function AuthHeaders(cfg: Config): map<string, string> {
    map["content-type" := "application/json", "authorization" := "Basic " + BasicCredential(cfg)]
  }

  /** The query of the client-credentials grant, up to the account id. */
  const GrantQuery := "?grant_type=account_credentials&account_id="

  function TokenUrl(cfg: Config): string {
    cfg.authUrl + GrantQuery + cfg.accountId
  }

  /** The one request `get_new_token` sends. */
  function TokenRequest(cfg: Config): Request {
    Request(Post, TokenUrl(cfg), AuthHeaders(cfg), None)
  }

  /**
   * The token request, read back: a POST without a body, carrying the Basic headers, to the
   * auth URL followed by the grant query and then exactly the account id.
   */
  lemma TokenRequestShape(cfg: Config)
    ensures var req := TokenRequest(cfg);
      var n := |cfg.authUrl| + |GrantQuery|;
      && req.verb == Post && req.body == None
      && req.headers["authorization"] == "Basic " + BasicCredential(cfg)
      && n <= |req.url|
      && req.url[..|cfg.authUrl|] == cfg.authUrl
      && req.url[|cfg.authUrl|..n] == GrantQuery
      && req.url[n..] == cfg.accountId
  {
    var url := TokenUrl(cfg);
    var n := |cfg.authUrl| + |GrantQuery|;
    assert url[..|cfg.authUrl|] == cfg.authUrl;
    assert url[|cfg.authUrl|..n] == GrantQuery;
    assert url[n..] == cfg.accountId;
  }

  /**
   * The credential the identity provider receives decodes, by section 4 of RFC 4648 and then
   * UTF-8, to exactly client id, colon, client secret; its length is 4 * ceil(n / 3) for the
   * n bytes encoded.
   */
  lemma CredentialRoundTrip(cfg: Config)
    ensures var raw := Utf8.Encode(cfg.clientId + ":" + cfg.clientSecret);
      && Base64.Decode(BasicCredential(cfg)) == Some(raw)
      && Utf8.Decode(raw) == Some(cfg.clientId + ":" + cfg.clientSecret)
      && |BasicCredential(cfg)| == 4 * ((|raw| + 2) / 3)
    ensures AuthHeaders(cfg)["authorization"] == "Basic " + BasicCredential(cfg)
  {
    var raw := Utf8.Encode(cfg.clientId + ":" + cfg.clientSecret);
    Base64.DecodeEncode(raw);
    Utf8.DecodeEncode(cfg.clientId + ":" + cfg.clientSecret);
  }

  /** `json.loads(response.content)[key]`, with the exceptions each step can raise. */
  function ReplyField(reply: Reply, key: string): (r: Result<Json, Fault>)
    ensures r.Ok? <==> reply.Reply? && reply.body.Some? && Field(reply.body.value, key).Some?
    ensures r.Ok? ==> r.value == Field(reply.body.value, key).value
  {
    match reply
    case NoResponse => Err(ConnectionFailed)
    case Reply(_, None) => Err(NotJson)
    case Reply(_, Some(body)) => Subscript(body, key)
  }

  /** The whole seconds `timedelta(seconds=v)` accepts from a decoded integer (`bool` is an `int`). */
  function LifetimeSeconds(v: Json): Option<int> {
    match v
    case JInt(i) => Some(i)
    case JBool(b) => Some(if b then 1 else 0)
    case _ => None
  }

  /** The `expires_in` a reply announces, when it has a usable one. */
  function ReplyLifetime(reply: Reply): Option<int> {
    match ReplyField(reply, "expires_in")
    case Err(_) => None
    case Ok(v) => LifetimeSeconds(v)
  }

  /**
   * `get_new_token`'s reads of `access_token` and `expires_in`: the token and the lifetime of
   * a reply, or the exception reading them raises. It succeeds exactly when the token is a
   * string and the lifetime is a usable whole number of seconds.
   */
  function ParseTokenReply(reply: Reply): (r: Result<(string, int), Fault>)
    ensures r.Ok? <==>
      && ReplyField(reply, "access_token").Ok?
      && ReplyField(reply, "access_token").value.JString?
      && ReplyLifetime(reply).Some?
    ensures ReplyField(reply, "access_token").Err? ==> r == Err(ReplyField(reply, "access_token").error)
    ensures (&& ReplyField(reply, "access_token").Ok?
             && ReplyField(reply, "access_token").value.JString?
             && ReplyField(reply, "expires_in").Err?)
      ==> r == Err(ReplyField(reply, "expires_in").error)
    ensures r.Ok? ==> ReplyField(reply, "access_token") == Ok(JString(r.value.0))
    ensures r.Ok? ==> ReplyLifetime(reply) == Some(r.value.1)
  {
    match ReplyField(reply, "access_token")
    case Err(e) => Err(e)
    case Ok(tokenValue) =>
      if !tokenValue.JString? then Err(UnsupportedValue("access_token"))
      else
        match ReplyField(reply, "expires_in")
        case Err(e) => Err(e)
        case Ok(lifetime) =>
          match LifetimeSeconds(lifetime)
          case None => Err(UnsupportedValue("expires_in"))
          case Some(seconds) => Ok((tokenValue.s, seconds))
  }

  /** A token fetched from the identity provider and the table after it was saved. */
  datatype Fetched = Fetched(accessToken: string, expires: Moment, table: Table)

  /**
   * `get_new_token()`: read the token and its lifetime from the reply, compute the expiry from
   * the clock, then insert the row (table empty) or overwrite row 1 in place, and commit.
   */
  function GetNewToken(reply: Reply, now: Moment, readFails: bool, tb: Table): (r: Result<Fetched, Fault>)
    ensures ReplyField(reply, "access_token").Err? ==> r == Err(ReplyField(reply, "access_token").error)
    ensures r.Ok? ==> ReplyField(reply, "access_token") == Ok(JString(r.value.accessToken))
    ensures r.Ok? ==> ReplyLifetime(reply) == Some(r.value.expires - now)
    ensures r.Ok? <==>
      && ParseTokenReply(reply).Ok?
      && AddSeconds(now, ParseTokenReply(reply).value.1).Some?
      && !readFails
      && |ParseTokenReply(reply).value.0| <= AccessTokenMaxLength
    ensures r.Ok? && Lookup(tb, CachedTokenId).Some? ==> |r.value.table| == |tb|
    ensures r.Ok? && WellFormed(tb) ==> WellFormed(r.value.table)
    ensures r.Ok? && Singleton(tb) ==>
      r.value.table == [Token(CachedTokenId, r.value.accessToken, r.value.expires)]
  {
    var parsed := ParseTokenReply(reply);
    if parsed.Err? then Err(parsed.error)
    else
      var token := parsed.value.0;
      var later := AddSeconds(now, parsed.value.1);
      if later.None? then Err(DateOverflow)
      else if readFails then Err(StorageFailed)
      else if |token| > AccessTokenMaxLength then Err(CommitRejected)
      else Ok(Fetched(token, later.value, Save(tb, token, later.value)))
  }

  /** `get_new_token`'s save step: overwrite row 1 when it exists, insert a new row otherwise. */
  function Save(tb: Table, token: string, expires: Moment): (r: Table)
    requires |token| <= AccessTokenMaxLength
    ensures Lookup(tb, CachedTokenId).Some? ==> |r| == |tb|
    ensures Lookup(tb, CachedTokenId).None? ==> |r| == |tb| + 1
    ensures WellFormed(tb) ==> WellFormed(r)
    ensures WellFormed(tb) && (Lookup(tb, CachedTokenId).Some? || |tb| == 0) ==>
      Lookup(r, CachedTokenId) == Some(Token(CachedTokenId, token, expires))
    ensures Singleton(tb) ==> r == [Token(CachedTokenId, token, expires)]
  {
    if Lookup(tb, CachedTokenId).Some? then
      UpdateInPlace(tb, CachedTokenId, token, expires);
      Update(tb, CachedTokenId, token, expires)
    else
      InsertKeepsKeys(tb, token, expires);
      Insert(tb, token, expires)
  }

  /** `check_token_valid`: the token is expired exactly when its expiry string sorts before the current time's. */
  function CheckTokenValid(tokenExp: string, now: Moment): bool {
    !StrLess(tokenExp, FormatInstant(now))
  }

  /** The string test is the time test: valid exactly when the expiry is not earlier than now (equal is valid). */
  lemma CheckTokenValidIff(exp: Moment, now: Moment)
    ensures CheckTokenValid(FormatInstant(exp), now) <==> now <= exp
  {
    FormatInstantOrder(exp, now);
  }

  /** What one call of `token()` did: its outcome, the table afterwards, and the identity-provider requests it sent. */
  datatype TokenRun = TokenRun(result: Result<string, Fault>, table: Table, requests: seq<Request>)

  /** The row `token()` starts from: `None` when the row is absent or the query raised. */
  function StoredToken(tb: Table, w: World): Option<Token> {
    if w.dbFails(0) then None else Lookup(tb, CachedTokenId)
  }

  /**
   * `token()`. A stored, unexpired row is returned as is. A miss fetches a token, then checks
   * that token's expiry against a fresh clock reading and fetches once more if it has already
   * passed. An expired row is replaced by one fetch, whose token is returned unchecked.
   */
  function TokenCall(cfg: Config, tb: Table, w: World): (run: TokenRun)
    ensures run.requests in {[], [TokenRequest(cfg)], [TokenRequest(cfg), TokenRequest(cfg)]}
    ensures run.result.Err? ==> |run.requests| >= 1
  {
    match StoredToken(tb, w)
    case Some(row) =>
      if CheckTokenValid(FormatInstant(row.tokenExpires), w.clock(0)) then TokenRun(Ok(row.accessToken), tb, [])
      else ReplaceExpired(TokenRequest(cfg), tb, w)
    case None => FetchOnMiss(TokenRequest(cfg), tb, w)
  }

  /** `token()` after reading an expired row: one fetch replaces it and its token is returned unchecked. */
  function ReplaceExpired(req: Request, tb: Table, w: World): (run: TokenRun)
    ensures run.requests == [req]
  {
    match GetNewToken(w.idp(0), w.clock(1), w.dbFails(1), tb)
    case Err(e) => TokenRun(Err(e), tb, [req])
    case Ok(f) => TokenRun(Ok(f.accessToken), f.table, [req])
  }

  /** `token()`'s `except` branch: no row was read; fetch, check the new expiry once, and fetch again if it has passed. */
  function FetchOnMiss(req: Request, tb: Table, w: World): (run: TokenRun)
    ensures run.requests == [req] || run.requests == [req, req]
  {
    match GetNewToken(w.idp(0), w.clock(0), w.dbFails(1), tb)
    case Err(e) => TokenRun(Err(e), tb, [req])
    case Ok(f) =>
      if CheckTokenValid(FormatInstant(f.expires), w.clock(1)) then
        TokenRun(Ok(f.accessToken), f.table, [req])
      else
        match GetNewToken(w.idp(1), w.clock(2), w.dbFails(2), f.table)
        case Err(e) => TokenRun(Err(e), f.table, [req, req])
        case Ok(g) => TokenRun(Ok(g.accessToken), g.table, [req, req])
  }

  /**
   * No identity-provider request is made exactly when the stored row was read and has not
   * expired; then the stored token is returned and the table is untouched.
   */
  lemma CachedIffNoRequest(cfg: Config, tb: Table, w: World)
    ensures var run := TokenCall(cfg, tb, w);
      |run.requests| == 0 <==>
        StoredToken(tb, w).Some? && w.clock(0) <= StoredToken(tb, w).value.tokenExpires
    ensures var run := TokenCall(cfg, tb, w);
      |run.requests| == 0 ==> run.result == Ok(StoredToken(tb, w).value.accessToken) && run.table == tb
  {
    if StoredToken(tb, w).Some? {
      CheckTokenValidIff(StoredToken(tb, w).value.tokenExpires, w.clock(0));
    }
  }

  /**
   * An expired row costs exactly one request. The call succeeds exactly when that fetch does,
   * and then returns the fetched token, never the stale one, with the table the fetch saved;
   * a failed fetch is the call's error and leaves the table as it was.
   */
  lemma ExpiredTokenReplaced(cfg: Config, tb: Table, w: World)
    requires StoredToken(tb, w).Some? && StoredToken(tb, w).value.tokenExpires < w.clock(0)
    ensures var run := TokenCall(cfg, tb, w);
      var f := GetNewToken(w.idp(0), w.clock(1), w.dbFails(1), tb);
      && |run.requests| == 1
      && (run.result.Ok? <==> f.Ok?)
      && (f.Ok? ==> run.result.value == f.value.accessToken && run.table == f.value.table)
      && (f.Err? ==> run.result == Err(f.error))
      && (run.result.Ok? ==> ReplyField(w.idp(0), "access_token") == Ok(JString(run.result.value)))
      && (run.result.Err? ==> run.table == tb)
  {
    CheckTokenValidIff(StoredToken(tb, w).value.tokenExpires, w.clock(0));
  }

  /**
   * A miss (absent row or failed read) is not an error in itself: it sends a request; a failed
   * fetch ends the call with that fetch's error, and a fetched token still valid at the next
   * clock reading is returned.
   */
  lemma MissFetches(cfg: Config, tb: Table, w: World)
    requires StoredToken(tb, w).None?
    ensures var run := TokenCall(cfg, tb, w);
      var first := GetNewToken(w.idp(0), w.clock(0), w.dbFails(1), tb);
      && |run.requests| >= 1
      && (first.Err? ==> run == TokenRun(Err(first.error), tb, [TokenRequest(cfg)]))
      && (first.Ok? && w.clock(1) <= first.value.expires ==>
            run == TokenRun(Ok(first.value.accessToken), first.value.table, [TokenRequest(cfg)]))
  {
    var first := GetNewToken(w.idp(0), w.clock(0), w.dbFails(1), tb);
    if first.Ok? {
      CheckTokenValidIff(first.value.expires, w.clock(1));
    }
  }

  /**
   * A miss whose first token has already expired at the re-check: the call is the second
   * fetch. It succeeds exactly when that fetch does and then returns the second token with
   * the table it saved; a failed second fetch is the call's error and keeps the first fetch's row.
   */
  lemma StaleFirstFetchRefetches(cfg: Config, tb: Table, w: World)
    requires StoredToken(tb, w).None?
    requires var first := GetNewToken(w.idp(0), w.clock(0), w.dbFails(1), tb);
      first.Ok? && first.value.expires < w.clock(1)
    ensures var run := TokenCall(cfg, tb, w);
      var first := GetNewToken(w.idp(0), w.clock(0), w.dbFails(1), tb);
      var second := GetNewToken(w.idp(1), w.clock(2), w.dbFails(2), first.value.table);
      && |run.requests| == 2
      && (run.result.Ok? <==> second.Ok?)
      && (second.Ok? ==> run.result.value == second.value.accessToken && run.table == second.value.table)
      && (second.Err? ==> run.result == Err(second.error) && run.table == first.value.table)
  {
    var first := GetNewToken(w.idp(0), w.clock(0), w.dbFails(1), tb);
    CheckTokenValidIff(first.value.expires, w.clock(1));
  }

  /** A reply whose usable `expires_in`, if any, is not negative. */
  predicate NonNegativeLifetime(reply: Reply) {
    ReplyLifetime(reply).Some? ==> ReplyLifetime(reply).value >= 0
  }

  /** With a clock that does not move and a non-negative lifetime, one call sends at most one request. */
  lemma AtMostOneRequest(cfg: Config, tb: Table, w: World, c: Moment)
    requires FixedClock(w, c) && NonNegativeLifetime(w.idp(0))
    ensures |TokenCall(cfg, tb, w).requests| <= 1
  {
    if StoredToken(tb, w).None? {
      var first := GetNewToken(w.idp(0), w.clock(0), w.dbFails(1), tb);
      if first.Ok? {
        assert w.clock(0) == c && w.clock(1) == c;
        CheckTokenValidIff(first.value.expires, w.clock(1));
      }
    }
  }

  /**
   * A second request happens exactly when the row was missed, the first fetch succeeded and
   * its expiry had already passed at the next clock reading.
   */
  lemma SecondRequestIff(cfg: Config, tb: Table, w: World)
    ensures var first := GetNewToken(w.idp(0), w.clock(0), w.dbFails(1), tb);
      |TokenCall(cfg, tb, w).requests| == 2 <==>
        StoredToken(tb, w).None? && first.Ok? && first.value.expires < w.clock(1)
  {
    var first := GetNewToken(w.idp(0), w.clock(0), w.dbFails(1), tb);
    if StoredToken(tb, w).None? && first.Ok? {
      CheckTokenValidIff(first.value.expires, w.clock(1));
    }
  }

  /**
   * With an empty table and a clock that ticks one second between the fetch and the check,
   * a zero-second lifetime makes one call fetch twice.
   */
  lemma TickingClockFetchesTwice(cfg: Config, w: World, token: string, c: Moment)
    requires |token| <= AccessTokenMaxLength
    requires w.idp(0) == Reply(200, Some(JObject(map["access_token" := JString(token), "expires_in" := JInt(0)])))
    requires !w.dbFails(1) && w.clock(0) == c && w.clock(1) == c + 1
    ensures |TokenCall(cfg, [], w).requests| == 2
  {
    var first := GetNewToken(w.idp(0), w.clock(0), w.dbFails(1), []);
    assert AddSeconds(c, 0) == Some(c);
    assert first.Ok? && first.value.expires == c;
    SecondRequestIff(cfg, [], w);
  }

  /** A reply object without `access_token` fails at that lookup: the table is unchanged and nothing is retried. */
  lemma MissingAccessTokenFails(cfg: Config, tb: Table, w: World)
    requires w.idp(0).Reply? && w.idp(0).body.Some? && w.idp(0).body.value.JObject?
    requires "access_token" !in w.idp(0).body.value.fields
    requires StoredToken(tb, w).None? || StoredToken(tb, w).value.tokenExpires < w.clock(0)
    ensures TokenCall(cfg, tb, w) == TokenRun(Err(KeyMissing("access_token")), tb, [TokenRequest(cfg)])
  {
    if StoredToken(tb, w).Some? {
      CheckTokenValidIff(StoredToken(tb, w).value.tokenExpires, w.clock(0));
    }
  }

  /** A successful fetch into a table in the cache's shape leaves exactly the fetched row. */
  lemma FetchKeepsSingleton(reply: Reply, now: Moment, readFails: bool, tb: Table)
    requires Singleton(tb)
    ensures var r := GetNewToken(reply, now, readFails, tb);
      r.Ok? ==> Singleton(r.value.table) && r.value.table[0].accessToken == r.value.accessToken
  {
    var r := GetNewToken(reply, now, readFails, tb);
    if r.Ok? {
      assert r.value.table == [Token(CachedTokenId, r.value.accessToken, r.value.expires)];
    }
  }

  /**
   * From a table in the cache's shape, a successful call leaves the cache's shape and returns
   * the token that the table now holds in row 1.
   */
  lemma ReturnedTokenIsStored(cfg: Config, tb: Table, w: World)
    requires Singleton(tb)
    ensures var run := TokenCall(cfg, tb, w);
      && Singleton(run.table)
      && (run.result.Ok? ==>
        Lookup(run.table, CachedTokenId).Some? && Lookup(run.table, CachedTokenId).value.accessToken == run.result.value)
  {
    var run := TokenCall(cfg, tb, w);
    match StoredToken(tb, w)
    case Some(row) =>
      assert row == tb[0];
      if CheckTokenValid(FormatInstant(row.tokenExpires), w.clock(0)) {
        assert run.table == tb;
      } else {
        var f := GetNewToken(w.idp(0), w.clock(1), w.dbFails(1), tb);
        FetchKeepsSingleton(w.idp(0), w.clock(1), w.dbFails(1), tb);
        assert f.Ok? ==> run.table == f.value.table && run.result == Ok(f.value.accessToken);
        assert f.Err? ==> run.table == tb && run.result.Err?;
      }
    case None =>
      var f := GetNewToken(w.idp(0), w.clock(0), w.dbFails(1), tb);
      FetchKeepsSingleton(w.idp(0), w.clock(0), w.dbFails(1), tb);
      if f.Err? {
        assert run.table == tb && run.result.Err?;
      } else if CheckTokenValid(FormatInstant(f.value.expires), w.clock(1)) {
        assert run.table == f.value.table && run.result == Ok(f.value.accessToken);
      } else {
        var g := GetNewToken(w.idp(1), w.clock(2), w.dbFails(2), f.value.table);
        FetchKeepsSingleton(w.idp(1), w.clock(2), w.dbFails(2), f.value.table);
        assert g.Ok? ==> run.table == g.value.table && run.result == Ok(g.value.accessToken);
        assert g.Err? ==> run.table == f.value.table && run.result.Err?;
      }
  }

  /**
   * Empty table, reply `{access_token: "tok1", expires_in: 3600}`: the call returns "tok1"
   * after one request and leaves exactly the row (1, "tok1", now + 3600).
   */
  lemma EmptyStoreScenario(cfg: Config, w: World, c: Moment)
    requires w.idp(0) == Reply(200, Some(JObject(map["access_token" := JString("tok1"), "expires_in" := JInt(3600)])))
    requires FixedClock(w, c) && !w.dbFails(1) && InRange(c + 3600)
    ensures var run := TokenCall(cfg, [], w);
      && run.result == Ok("tok1")
      && run.table == [Token(CachedTokenId, "tok1", c + 3600)]
      && |run.requests| == 1
  {
    var first := GetNewToken(w.idp(0), w.clock(0), w.dbFails(1), []);
    assert ParseTokenReply(w.idp(0)) == Ok(("tok1", 3600));
    assert AddSeconds(c, 3600) == Some(c + 3600);
    assert first == Ok(Fetched("tok1", c + 3600, [Token(CachedTokenId, "tok1", c + 3600)]));
    MissFetches(cfg, [], w);
  }

  /**
   * With a clock that does not move and a non-negative lifetime, a successful call leaves a
   * row 1 that has not expired at that clock reading.
   */
  lemma StoredRowStillValid(cfg: Config, tb: Table, w: World, c: Moment)
    requires Singleton(tb) && FixedClock(w, c) && NonNegativeLifetime(w.idp(0))
    ensures var run := TokenCall(cfg, tb, w);
      run.result.Ok? ==> Lookup(run.table, CachedTokenId).Some? && c <= Lookup(run.table, CachedTokenId).value.tokenExpires
  {
    var run := TokenCall(cfg, tb, w);
    assert w.clock(0) == c && w.clock(1) == c;
    match StoredToken(tb, w)
    case Some(row) =>
      assert row == tb[0];
      CheckTokenValidIff(row.tokenExpires, c);
      if c <= row.tokenExpires {
        assert run.table == tb;
      } else {
        var f := GetNewToken(w.idp(0), c, w.dbFails(1), tb);
        if f.Ok? {
          assert run.table == f.value.table == [Token(CachedTokenId, f.value.accessToken, f.value.expires)];
        }
      }
    case None =>
      var f := GetNewToken(w.idp(0), c, w.dbFails(1), tb);
      if f.Ok? {
        CheckTokenValidIff(f.value.expires, c);
        assert run.table == f.value.table == [Token(CachedTokenId, f.value.accessToken, f.value.expires)];
      }
  }

  /**
   * Two calls in immediate succession (same clock reading, non-negative lifetime) make at most
   * one request between them: the second call finds the token the first one stored.
   */
  lemma SecondCallUsesCache(cfg: Config, tb: Table, w1: World, w2: World, c: Moment)
    requires Singleton(tb) && FixedClock(w1, c) && NonNegativeLifetime(w1.idp(0))
    requires w2.clock(0) == c && !w2.dbFails(0)
    ensures var run1 := TokenCall(cfg, tb, w1);
      var run2 := TokenCall(cfg, run1.table, w2);
      run1.result.Ok? ==> run2.requests == [] && run2.result == run1.result
  {
    var run1 := TokenCall(cfg, tb, w1);
    if run1.result.Ok? {
      ReturnedTokenIsStored(cfg, tb, w1);
      StoredRowStillValid(cfg, tb, w1, c);
      CachedIffNoRequest(cfg, run1.table, w2);
    }
  }

}

=== FILE: token_model.dfy ===
/**
 * The `token` table: the persisted record of the cached access token, and the few table
 * operations the token cache performs on it (select by id, insert, update in place).
 */
module TokenModel {

  import opened Wrappers
  import opened CivilTime

  /** `String(1000)`: the declared maximum length of the `access_token` column. */
  const AccessTokenMaxLength: nat := 1000

  /** The id of the one row the token cache reads and writes. */
  const CachedTokenId: int := 1

  /** One row: integer primary key, non-null token string, non-null expiry. */
  datatype Token = Token(id: int, accessToken: string, tokenExpires: Moment)

  /** The rows of the table in storage order. */
  type Table = seq<Token>

  predicate ValidToken(t: Token) {
    |t.accessToken| <= AccessTokenMaxLength
  }

  /** Every row satisfies the column constraints and no two rows share a primary key. */
  predicate WellFormed(tb: Table) {
    && (forall i :: 0 <= i < |tb| ==> ValidToken(tb[i]))
    && (forall i, j :: 0 <= i < j < |tb| ==> tb[i].id != tb[j].id)
  }

  /** The shape the token cache keeps the table in: empty, or the one row with id 1. */
  predicate Singleton(tb: Table) {
    |tb| <= 1 && forall i :: 0 <= i < |tb| ==> tb[i].id == CachedTokenId && ValidToken(tb[i])
  }

  /** `query(Token).filter_by(id=id).first()`. */
  function Lookup(tb: Table, id: int): (r: Option<Token>)
    ensures r.None? <==> forall i :: 0 <= i < |tb| ==> tb[i].id != id
    ensures r.Some? ==> r.value in tb && r.value.id == id
  {
    if |tb| == 0 then None
    else if tb[0].id == id then Some(tb[0])
    else Lookup(tb[1..], id)
  }

  /** The largest id in the table (0 when it is empty). */
  function MaxId(tb: Table): (m: int)
    ensures forall i :: 0 <= i < |tb| ==> tb[i].id <= m
  {
    if |tb| == 0 then 0
    else
      var rest := MaxId(tb[1..]);
      if |tb| == 1 || tb[0].id >= rest then tb[0].id else rest
  }

  /** The id the database gives a row inserted without one: 1 in an empty table, else one more than the largest. */
  function NextId(tb: Table): (n: int)
    ensures forall i :: 0 <= i < |tb| ==> tb[i].id < n
  {
    if |tb| == 0 then 1 else MaxId(tb) + 1
  }

  /**
   * `session.add(Token(access_token=..., token_expires=...))` followed by a commit: every row
   * found before is found unchanged, and the new row is found under the id the database gave it.
   */
  function Insert(tb: Table, accessToken: string, expires: Moment): (r: Table)
    ensures |r| == |tb| + 1
    ensures forall id :: Lookup(tb, id).Some? ==> Lookup(r, id) == Lookup(tb, id)
    ensures Lookup(r, NextId(tb)) == Some(Token(NextId(tb), accessToken, expires))
  {
    var row := Token(NextId(tb), accessToken, expires);
    LookupAppendAll(tb, row);
    tb + [row]
  }

  /** Appending a row leaves every existing lookup alone and makes the row findable when its id is new. */
  lemma {:induction false} LookupAppend(tb: Table, row: Token, id: int)
    ensures Lookup(tb + [row], id) == if Lookup(tb, id).Some? then Lookup(tb, id) else if row.id == id then Some(row) else None
    decreases |tb|
  {
    if |tb| > 0 {
      assert (tb + [row])[1..] == tb[1..] + [row];
      LookupAppend(tb[1..], row, id);
    }
  }

  lemma LookupAppendAll(tb: Table, row: Token)
    ensures forall id :: Lookup(tb + [row], id) == if Lookup(tb, id).Some? then Lookup(tb, id) else if row.id == id then Some(row) else None
  {
    forall id
      ensures Lookup(tb + [row], id) == if Lookup(tb, id).Some? then Lookup(tb, id) else if row.id == id then Some(row) else None
    {
      LookupAppend(tb, row, id);
    }
  }

  /** Assigning both fields of the row with primary key `id` and committing: an `UPDATE ... WHERE id = ...`. */
  function Update(tb: Table, id: int, accessToken: string, expires: Moment): (r: Table)
    ensures |r| == |tb|
    ensures forall i :: 0 <= i < |tb| ==> r[i] == (if tb[i].id == id then Token(id, accessToken, expires) else tb[i])
  {
    if |tb| == 0 then []
    else [if tb[0].id == id then Token(id, accessToken, expires) else tb[0]] + Update(tb[1..], id, accessToken, expires)
  }

  /** Inserting keeps a well-formed table well formed: the new id is fresh and the token fits its column. */
  lemma InsertKeepsKeys(tb: Table, accessToken: string, expires: Moment)
    requires |accessToken| <= AccessTokenMaxLength
    ensures WellFormed(tb) ==> WellFormed(Insert(tb, accessToken, expires))
  {
    var r := Insert(tb, accessToken, expires);
    assert r == tb + [Token(NextId(tb), accessToken, expires)];
  }

  /** Updating rewrites the row in place: same rows, same keys, and the row now holds the new values. */
  lemma UpdateInPlace(tb: Table, id: int, accessToken: string, expires: Moment)
    requires Lookup(tb, id).Some? && |accessToken| <= AccessTokenMaxLength
    ensures WellFormed(tb) ==> WellFormed(Update(tb, id, accessToken, expires))
    ensures WellFormed(tb) ==> Lookup(Update(tb, id, accessToken, expires), id) == Some(Token(id, accessToken, expires))
    ensures forall i :: 0 <= i < |tb| ==> Update(tb, id, accessToken, expires)[i].id == tb[i].id
  {
    var row := Lookup(tb, id).value;
    var k :| 0 <= k < |tb| && tb[k] == row;
    var r := Update(tb, id, accessToken, expires);
    UpdateKeepsRows(tb, id, accessToken, expires);
    assert r[k] == Token(id, accessToken, expires);
    if WellFormed(tb) {
      assert |r| == |tb|;
      assert forall i :: 0 <= i < |r| ==> ValidToken(r[i]);
      assert forall i, j :: 0 <= i < j < |r| ==> r[i].id != r[j].id;
      assert WellFormed(r);
      LookupUnique(r, k);
    }
  }

  lemma UpdateKeepsRows(tb: Table, id: int, accessToken: string, expires: Moment)
    requires |accessToken| <= AccessTokenMaxLength
    ensures forall i :: 0 <= i < |tb| ==>
      && Update(tb, id, accessToken, expires)[i].id == tb[i].id
      && (ValidToken(tb[i]) ==> ValidToken(Update(tb, id, accessToken, expires)[i]))
  {
    var r := Update(tb, id, accessToken, expires);
    forall i | 0 <= i < |tb|
      ensures r[i].id == tb[i].id && (ValidToken(tb[i]) ==> ValidToken(r[i]))
    {
      if tb[i].id == id {
        assert r[i] == Token(id, accessToken, expires);
      } else {
        assert r[i] == tb[i];
      }
    }
  }

  /** With distinct keys, the row found by id is the one row carrying that id. */
  lemma LookupUnique(tb: Table, k: int)
    requires 0 <= k < |tb|
    requires forall i, j :: 0 <= i < j < |tb| ==> tb[i].id != tb[j].id
    ensures Lookup(tb, tb[k].id) == Some(tb[k])
  {
    if k > 0 {
      LookupUnique(tb[1..], k - 1);
    }
  }
}

=== FILE: utf8.dfy ===
/** Python's `str.encode()`: UTF-8, the default codec, over Unicode scalar values. */
module Utf8 {

  import opened Wrappers

  type Byte = b: int | 0 <= b < 256

  /** True when `b` is a UTF-8 continuation byte `10xxxxxx`. */
  predicate IsContinuation(b: Byte) {
    0x80 <= b < 0xC0
  }

  /** The UTF-8 encoding of one scalar value: one to four bytes, by the size of the code point. */
  function EncodeChar(c: char): (bs: seq<Byte>)
    ensures 1 <= |bs| <= 4
    ensures |bs| == 1 <==> (c as int) < 0x80
  {
    var n := c as int;
    if n < 0x80 then [n]
    else if n < 0x800 then [0xC0 + n / 64, 0x80 + n % 64]
    else if n < 0x10000 then [0xE0 + n / 4096, 0x80 + n / 64 % 64, 0x80 + n % 64]
    else [0xF0 + n / 262144, 0x80 + n / 4096 % 64, 0x80 + n / 64 % 64, 0x80 + n % 64]
  }

  /** `s.encode()`: the concatenated encodings of its characters. */
  function Encode(s: string): (bs: seq<Byte>)
    ensures |s| <= |bs| <= 4 * |s|
  {
    if |s| == 0 then [] else EncodeChar(s[0]) + Encode(s[1..])
  }

  predicate IsScalar(n: int) {
    (0 <= n < 0xD800) || (0xE000 <= n < 0x110000)
  }

  /** Decodes the first character of `bs`, with the number of bytes it took; rejects overlong and surrogate forms. */
  function DecodeChar(bs: seq<Byte>): (r: Option<(char, nat)>)
    ensures r.Some? ==> 1 <= r.value.1 <= |bs|
  {
    if |bs| == 0 then None
    else if bs[0] < 0x80 then Some((bs[0] as char, 1))
    else if 0xC0 <= bs[0] < 0xE0 && |bs| >= 2 && IsContinuation(bs[1]) then
      var n := (bs[0] as int - 0xC0) * 64 + (bs[1] as int - 0x80);
      if 0x80 <= n then Some((n as char, 2)) else None
    else if 0xE0 <= bs[0] < 0xF0 && |bs| >= 3 && IsContinuation(bs[1]) && IsContinuation(bs[2]) then
      var n := (bs[0] as int - 0xE0) * 4096 + (bs[1] as int - 0x80) * 64 + (bs[2] as int - 0x80);
      if 0x800 <= n && IsScalar(n) then Some((n as char, 3)) else None
    else if 0xF0 <= bs[0] < 0xF8 && |bs| >= 4 && IsContinuation(bs[1]) && IsContinuation(bs[2]) && IsContinuation(bs[3]) then
      var n := (bs[0] as int - 0xF0) * 262144 + (bs[1] as int - 0x80) * 4096 + (bs[2] as int - 0x80) * 64 + (bs[3] as int - 0x80);
      if 0x10000 <= n < 0x110000 then Some((n as char, 4)) else None
    else None
  }

  /** The inverse of `Encode`: `None` for byte strings that are not well-formed UTF-8. */
  function Decode(bs: seq<Byte>): Option<string>
    decreases |bs|
  {
    if |bs| == 0 then Some("")
    else match DecodeChar(bs)
      case None => None
      case Some((c, k)) =>
        match Decode(bs[k..])
        case None => None
        case Some(rest) => Some([c] + rest)
  }

  lemma DecodeEncodeChar(c: char, rest: seq<Byte>)
    ensures DecodeChar(EncodeChar(c) + rest) == Some((c, |EncodeChar(c)|))
  {
    var n := c as int;
    var e := EncodeChar(c);
    if n < 0x80 {
    } else if n < 0x800 {
      assert n == (n / 64) * 64 + n % 64;
    } else if n < 0x10000 {
      assert n / 64 == (n / 4096) * 64 + n / 64 % 64;
      assert n == (n / 64) * 64 + n % 64;
    } else {
      assert n / 4096 == (n / 262144) * 64 + n / 4096 % 64;
      assert n / 64 == (n / 4096) * 64 + n / 64 % 64;
      assert n == (n / 64) * 64 + n % 64;
    }
  }

  /** Decoding an encoded string gives the string back. */
  lemma {:induction false} DecodeEncode(s: string)
    ensures Decode(Encode(s)) == Some(s)
    decreases |s|
  {
    if |s| > 0 {
      var e := EncodeChar(s[0]);
      DecodeEncodeChar(s[0], Encode(s[1..]));
      assert (e + Encode(s[1..]))[|e|..] == Encode(s[1..]);
      DecodeEncode(s[1..]);
      assert s == [s[0]] + s[1..];
    }
  }

  /** On ASCII text the encoding is the sequence of code points, one byte per character. */
  lemma {:induction false} EncodeAscii(s: string)
    requires forall i :: 0 <= i < |s| ==> (s[i] as int) < 0x80
    ensures |Encode(s)| == |s|
    ensures forall i :: 0 <= i < |s| ==> Encode(s)[i] == s[i] as int
    decreases |s|
  {
    if |s| > 0 {
      EncodeAscii(s[1..]);
    }
  }
}

=== FILE: wrappers.dfy ===
/** Option and Result types used across the model for absent values and raised errors. */
module Wrappers {

  /** A value that may be missing (Python's `None`). */
  datatype Option<+T> = None | Some(value: T)

  /** Either a value (`Ok`) or the error an operation raised (`Err`). */
  datatype Result<+T, +E> = Ok(value: T) | Err(error: E)
}

=== FILE: zoom_commands.dfy ===
/**
 * The Zoom Rooms commands of `zoom_utils/zoom_funcs.py`: every call first obtains the access
 * token through the token cache, then sends one request to the Zoom REST API with a Bearer
 * header and maps the reply to a view result.
 *
 * The Zoom API's reply is an input (`zoom`), like the identity provider's replies in `World`.
 */
module ZoomCommands {

  import opened Wrappers
  import opened Json
  import opened Http
  import opened TokenModel
  import opened TokenCache

  /** The room `zoomrooms_accept_meeting` targets when no room is given. */
  const MeetingAcceptRoom := "l0Bma8pPTlK7rq93NpKX4g"

  const VideoUnmute := "zoomroom.video_unmute"
  const VideoMute := "zoomroom.video_mute"
  const MeetingAccept := "zoomroom.meeting_accept"

  /** The status with which the Zoom API accepts a room event. */
  const Accepted := 202

  const MeetingJoined := "Zoom Room joined the meeting"
  const CloudError := "An error occurred calling Zoom Cloud"

  const RoomsPrefix := "/rooms/"
  const EventsSuffix := "/events"

  /** `zoomroom_toggle_camera`'s choice of event: a truthy toggle turns the video on, anything else mutes it. */
  function CameraCommand(toggle: Json): string {
    if Truthy(toggle) then VideoUnmute else VideoMute
  }

  /** The camera state a room event asks for, if it is a camera event. */
  function CommandState(cmd: string): Option<bool> {
    if cmd == VideoUnmute then Some(true)
    else if cmd == VideoMute then Some(false)
    else None
  }

  /** The event sent for a toggle names exactly the toggle's truth value. */
  lemma CameraCommandState(toggle: Json)
    ensures CommandState(CameraCommand(toggle)) == Some(Truthy(toggle))
    ensures CommandState(MeetingAccept) == None
  {
  }

  /** `/rooms/{room_id}/events`. */
  function EventsEndpoint(roomId: string): string {
    RoomsPrefix + roomId + EventsSuffix
  }

  /** The room named by an events endpoint. */
  function EndpointRoom(endpoint: string): Option<string> {
    if |endpoint| >= |RoomsPrefix| + |EventsSuffix|
      && endpoint[..|RoomsPrefix|] == RoomsPrefix
      && endpoint[|endpoint| - |EventsSuffix|..] == EventsSuffix
    then Some(endpoint[|RoomsPrefix|..|endpoint| - |EventsSuffix|])
    else None
  }

  /** The endpoint names its room: reading it back gives the room, so distinct rooms get distinct endpoints. */
  lemma EndpointRoomRoundTrip(roomId: string)
    ensures EndpointRoom(EventsEndpoint(roomId)) == Some(roomId)
  {
    var e := EventsEndpoint(roomId);
    assert e[..|RoomsPrefix|] == RoomsPrefix;
    assert e[|e| - |EventsSuffix|..] == EventsSuffix;
    assert e[|RoomsPrefix|..|e| - |EventsSuffix|] == roomId;
  }

  lemma EventsEndpointInjective(a: string, b: string)
    ensures EventsEndpoint(a) == EventsEndpoint(b) <==> a == b
  {
    EndpointRoomRoundTrip(a);
    EndpointRoomRoundTrip(b);
  }

  /** The JSON body `{'method': command}`. */
  function CommandBody(cmd: string): Json {
    JObject(map["method" := JString(cmd)])
  }

  /** The headers `create_headers` builds around an access token. */
  function BearerHeaders(accessToken: string): map<string, string> {
    map["content-type" := "application/json", "authorization" := "Bearer " + accessToken]
  }

  /** The access token a Bearer authorization header carries. */
  function BearerToken(headers: map<string, string>): Option<string> {
    if "authorization" in headers && |headers["authorization"]| >= 7 && headers["authorization"][..7] == "Bearer "
    then Some(headers["authorization"][7..])
    else None
  }

  lemma BearerTokenRoundTrip(accessToken: string)
    ensures BearerToken(BearerHeaders(accessToken)) == Some(accessToken)
    ensures BearerHeaders(accessToken)["content-type"] == "application/json"
  {
    var h := BearerHeaders(accessToken)["authorization"];
    assert h[..7] == "Bearer ";
    assert h[7..] == accessToken;
  }

  /**
   * The view result of `zoomroom_toggle_camera` and `zoomrooms_accept_meeting`: 202 gives the
   * success message, anything else the error message with Zoom's status.
   */
  function StatusResponse(status: int, success: string): (r: Response)
    requires success != CloudError
    ensures r.status == status
    ensures r.body.Keys == {"message"}
    ensures r.body["message"] == success <==> status == Accepted
    ensures status != Accepted ==> r.body["message"] == CloudError
  {
    if status == Accepted then Response(map["message" := success], Accepted)
    else Response(map["message" := CloudError], status)
  }

  /**
   * One command call: the token call it made, the Zoom API requests it sent, and its outcome
   * (a view result, or the exception that escaped).
   */
  datatype CommandRun<T> = CommandRun(token: TokenRun, apiRequests: seq<Request>, result: Result<T, Fault>)

  /** The PATCH that posts `cmd` to a room's events endpoint. */
  function EventRequest(cfg: Config, accessToken: string, roomId: string, cmd: string): Request {
    Request(Patch, cfg.apiUrl + EventsEndpoint(roomId), BearerHeaders(accessToken), Some(CommandBody(cmd)))
  }

  /**
   * The PATCH step of `zoomroom_toggle_camera` and `zoomrooms_accept_meeting`: obtain the
   * token (`create_headers` runs before the request is sent), PATCH the event, and map the
   * status. A failing token call or a request that gets no response raises.
   */
  function SendEvent(cfg: Config, tb: Table, w: World, zoom: Reply, roomId: string, cmd: string, success: string)
    : (run: CommandRun<Response>)
    requires success != CloudError
    ensures run.token == TokenCall(cfg, tb, w)
    ensures run.token.result.Err? <==> run.apiRequests == []
    ensures run.token.result.Ok? ==> run.apiRequests == [EventRequest(cfg, run.token.result.value, roomId, cmd)]
    ensures run.result.Ok? <==> run.token.result.Ok? && zoom.Reply?
    ensures run.result.Ok? ==> run.result.value.status == zoom.status
    ensures run.token.result.Err? ==> run.result == Err(run.token.result.error)
  {
    var t := TokenCall(cfg, tb, w);
    match t.result
    case Err(e) => CommandRun(t, [], Err(e))
    case Ok(accessToken) =>
      var req := EventRequest(cfg, accessToken, roomId, cmd);
      match zoom
      case NoResponse => CommandRun(t, [req], Err(ConnectionFailed))
      case Reply(status, _) => CommandRun(t, [req], Ok(StatusResponse(status, success)))
  }

  /** The room a call uses: the one given, else the default. */
  function RoomOrDefault(room: Option<string>, default: string): string {
    if room.Some? then room.value else default
  }

  /** `zoomroom_toggle_camera(toggle, room_id=ROOM_ID)`. */
  function ToggleCamera(cfg: Config, tb: Table, w: World, zoom: Reply, toggle: Json, room: Option<string>)
    : (run: CommandRun<Response>)
  {
    SendEvent(cfg, tb, w, zoom, RoomOrDefault(room, cfg.roomId), CameraCommand(toggle), CameraToggled)
  }

  /** `zoomrooms_accept_meeting(room_id='l0Bma8pPTlK7rq93NpKX4g')`. */
  function AcceptMeeting(cfg: Config, tb: Table, w: World, zoom: Reply, room: Option<string>)
    : (run: CommandRun<Response>)
  {
    SendEvent(cfg, tb, w, zoom, RoomOrDefault(room, MeetingAcceptRoom), MeetingAccept, MeetingJoined)
  }

  /**
   * The camera request, read back: it is a PATCH to the events endpoint of the chosen room
   * (the configured one by default), authorised by the token the cache returned, and its
   * `method` names the toggle's truth value. Nothing is sent when the token call failed.
   */
  lemma ToggleCameraRequest(cfg: Config, tb: Table, w: World, zoom: Reply, toggle: Json, room: Option<string>)
    ensures var run := ToggleCamera(cfg, tb, w, zoom, toggle, room);
      var token := TokenCall(cfg, tb, w);
      && (token.result.Err? ==> run.apiRequests == [] && run.result == Err(token.result.error))
      && (token.result.Ok? ==>
        && |run.apiRequests| == 1
        && run.apiRequests[0].verb == Patch
        && |cfg.apiUrl| <= |run.apiRequests[0].url|
        && run.apiRequests[0].url[..|cfg.apiUrl|] == cfg.apiUrl
        && EndpointRoom(run.apiRequests[0].url[|cfg.apiUrl|..]) == Some(if room.Some? then room.value else cfg.roomId)
        && BearerToken(run.apiRequests[0].headers) == Some(token.result.value)
        && run.apiRequests[0].body.Some?
        && Field(run.apiRequests[0].body.value, "method").Some?
        && Field(run.apiRequests[0].body.value, "method").value.JString?
        && CommandState(Field(run.apiRequests[0].body.value, "method").value.s) == Some(Truthy(toggle)))
  {
    var run := ToggleCamera(cfg, tb, w, zoom, toggle, room);
    var token := TokenCall(cfg, tb, w);
    if token.result.Ok? {
      var roomId := RoomOrDefault(room, cfg.roomId);
      var url := cfg.apiUrl + EventsEndpoint(roomId);
      assert run.apiRequests[0].url == url;
      assert url[..|cfg.apiUrl|] == cfg.apiUrl;
      assert url[|cfg.apiUrl|..] == EventsEndpoint(roomId);
      EndpointRoomRoundTrip(roomId);
      BearerTokenRoundTrip(token.result.value);
      CameraCommandState(toggle);
    }
  }

  /**
   * The camera call answers with Zoom's own status and reports success exactly on 202; a
   * request that got no response raises. The table afterwards is the token call's.
   */
  lemma ToggleCameraOutcome(cfg: Config, tb: Table, w: World, zoom: Reply, toggle: Json, room: Option<string>)
    ensures var run := ToggleCamera(cfg, tb, w, zoom, toggle, room);
      && run.token == TokenCall(cfg, tb, w)
      && (run.token.result.Ok? && zoom.NoResponse? ==> run.result == Err(ConnectionFailed))
      && (run.token.result.Ok? && zoom.Reply? ==>
        && run.result.Ok?
        && run.result.value.status == zoom.status
        && (run.result.value.body["message"] == CameraToggled <==> zoom.status == Accepted)
        && (zoom.status != Accepted ==> run.result.value.body["message"] == CloudError))
  {
  }

  /** The same for accepting a meeting; its default room is fixed and does not follow the configured room. */
  lemma AcceptMeetingOutcome(cfg: Config, tb: Table, w: World, zoom: Reply, room: Option<string>)
    ensures var run := AcceptMeeting(cfg, tb, w, zoom, room);
      && run.token == TokenCall(cfg, tb, w)
      && (run.token.result.Ok? ==>
        run.apiRequests == [EventRequest(cfg, run.token.result.value, if room.Some? then room.value else MeetingAcceptRoom, MeetingAccept)])
      && (run.token.result.Ok? && zoom.NoResponse? ==> run.result == Err(ConnectionFailed))
      && (run.token.result.Ok? && zoom.Reply? ==>
        && run.result.Ok?
        && run.result.value.status == zoom.status
        && (run.result.value.body["message"] == MeetingJoined <==> zoom.status == Accepted)
        && (zoom.status != Accepted ==> run.result.value.body["message"] == CloudError))
  {
  }

  /** Omitting the room is the same call as naming the default room explicitly. */
  lemma DefaultRooms(cfg: Config, tb: Table, w: World, zoom: Reply, toggle: Json)
    ensures ToggleCamera(cfg, tb, w, zoom, toggle, None) == ToggleCamera(cfg, tb, w, zoom, toggle, Some(cfg.roomId))
    ensures AcceptMeeting(cfg, tb, w, zoom, None) == AcceptMeeting(cfg, tb, w, zoom, Some(MeetingAcceptRoom))
    ensures forall cfg2: Config :: cfg2 == cfg.(roomId := cfg2.roomId) ==>
      AcceptMeeting(cfg2, tb, w, zoom, None) == AcceptMeeting(cfg, tb, w, zoom, None)
  {
    forall cfg2: Config | cfg2 == cfg.(roomId := cfg2.roomId)
      ensures AcceptMeeting(cfg2, tb, w, zoom, None) == AcceptMeeting(cfg, tb, w, zoom, None)
    {
      TokenCallIgnoresRoom(cfg, cfg2, tb, w);
    }
  }

  /** The token cache never looks at the configured room. */
  lemma TokenCallIgnoresRoom(cfg: Config, cfg2: Config, tb: Table, w: World)
    requires cfg2 == cfg.(roomId := cfg2.roomId)
    ensures TokenCall(cfg2, tb, w) == TokenCall(cfg, tb, w)
  {
    assert TokenRequest(cfg2) == TokenRequest(cfg);
  }

  /** `zoomrooms_list`: GET the room list and return the reply's `rooms` field, whatever the status. */
  function ZoomroomsList(cfg: Config, tb: Table, w: World, zoom: Reply): (run: CommandRun<Json>)
    ensures run.token == TokenCall(cfg, tb, w)
    ensures run.token.result.Err? <==> run.apiRequests == []
    ensures run.token.result.Ok? ==>
      run.apiRequests == [Request(Get, cfg.apiUrl + "/rooms", BearerHeaders(run.token.result.value), None)]
  {
    var t := TokenCall(cfg, tb, w);
    match t.result
    case Err(e) => CommandRun(t, [], Err(e))
    case Ok(accessToken) =>
      var req := Request(Get, cfg.apiUrl + "/rooms", BearerHeaders(accessToken), None);
      match zoom
      case NoResponse => CommandRun(t, [req], Err(ConnectionFailed))
      case Reply(_, None) => CommandRun(t, [req], Err(NotJson))
      case Reply(_, Some(body)) => CommandRun(t, [req], Subscript(body, "rooms"))
  }

  /**
   * The list call succeeds exactly when the token call did and the reply is a JSON object with
   * `rooms`, which it returns as is; the status code plays no part.
   */
  lemma ZoomroomsListResult(cfg: Config, tb: Table, w: World, zoom: Reply)
    ensures var run := ZoomroomsList(cfg, tb, w, zoom);
      && (run.result.Ok? <==>
        run.token.result.Ok? && zoom.Reply? && zoom.body.Some? && Field(zoom.body.value, "rooms").Some?)
      && (run.result.Ok? ==> run.result.value == Field(zoom.body.value, "rooms").value)
      && (run.token.result.Ok? && zoom.Reply? && zoom.body.Some? && !zoom.body.value.JObject? ==>
        run.result == Err(NotSubscriptable))
    ensures zoom.Reply? ==> forall s: int ::
      ZoomroomsList(cfg, tb, w, Reply(s, zoom.body)).result == ZoomroomsList(cfg, tb, w, zoom).result
  {
  }
}
